=== FILE: README.md ===
# CodePush update installation, modelled in Dafny

This project models the client side of a CodePush update install, as done by
the Cordova plugin. It covers two pieces.

- **The install pipeline of `LocalPackage`.**
  - Clean a stale unzip directory and unzip the downloaded archive.
  - Verify the package hash, and the signed hash when code signing is on.
  - Deploy the update into `codepush/deploy/versions/<packageHash>`, either cleanly or as a diff over the current package.
  - Back up the current package record, write the new one, then hand over to the native `preInstall` and `install` calls.
  - Also covered: the package records' read variants and the default install options.
- **The Android content hash (`UpdateHashUtils`).** It walks the update's tree and makes one `<key>:<sha256>` entry per file. It then sorts the entries, writes them as a JSON array with the `\/` escapes removed, and hashes that text. Each SHA-256 digest is printed with `%064x`.

The asynchronous callbacks of `localPackage.ts` run one after another. So the pipeline is modelled as a pure function. It maps the data directory and the answers of the outside world (`Install.Env`) to two things: the final data directory and the trace of events the caller and the native side observe (`Install.Event`).

The data directory is a map from paths to folders and files (`FileTree.Tree`). A stored file holds one of a few content shapes (`PackageInfo.Content`); JSON text is not modelled beyond that.

SHA-256 and `String.getBytes` are parameters (`HashManifest.Crypto`).

Modules, in dependency order:

| file | module | role |
|---|---|---|
| `wrappers.dfy` | `Wrappers` | `Option`, `Result` |
| `file_tree.dfy` | `FileTree` | the data directory and the FileUtil operations the pipeline uses, with frame lemmas (`Confined`) |
| `package_info.dfy` | `PackageInfo` | package records, the two record slots, read/write/backup |
| `verification.dfy` | `Verification` | verifyPackage |
| `deployment.dfy` | `Deployment` | handleDeployment, clean and diff deployment, copyCurrentPackage |
| `install.dfy` | `Install` | install options, install, finishInstall |
| `hex.dfy` | `Hex` | the `%064x` text of a digest |
| `string_order.dfy` | `StringOrder` | `String.compareTo` and `Collections.sort` |
| `hash_manifest.dfy` | `HashManifest` | getHashForPath, addFolderEntriesToManifest, the JSON text |

## Behaviour worth knowing

Facts about `localPackage.ts` and `UpdateHashUtils.java` that the model keeps:

- `backupPackageInformationFile` reports an error when `currentPackage.json` does not exist; it does not treat a missing file as nothing to back up. `finishInstall` ignores that error (`PackageInfo.BackupPackageInformationFile`, `Install.RecordPackage`).
- The signature check is called before the hashes are compared. So a failing `verifySignature` call is what gets reported, even when the hashes also differ (`Verification.VerifyPackage`).
- An unzip error is reported, and the pipeline then goes on to verify and deploy anyway. So one install can report two errors, or an error followed by success (`Install.UnzipErrorOnlyReported`).
- In `install`, the "Could not unzip and verify package." branch can never run. `verifyPackage` only ever calls its continuation without an error; every verification error goes straight to the error callback.
- A file of the walked directory gets a key that repeats its name: `www/index.html` is keyed `www/index.html/index.html`. The prefix already ends with the child's name when the file's entry is made (`HashManifest.KeyRepeatsName`).

## Model

| member | source | states |
|---|---|---|
| `PackageInfo.NewMetadata` | www/localPackage.ts:220-241 | the new record carries the package's hash, label, key, description, mandatory flag, size and local path. Both run flags are false. The app version and build time are the values the native calls return, and are absent exactly when those calls fail |
| `PackageInfo.FromMetadata` | www/localPackage.ts:430-453 | a `null` record fails with "Invalid package metadata."; any other record yields a package. That package copies the record's app version, key, description, mandatory flag, label, local path, hash and size, and takes the two run flags from the native answers for its hash |
| `PackageInfo.GetPackage` | www/localPackage.ts:407-428 | a missing slot fails with the prefixed read error, and unparsable text fails with the prefixed parse error. A stored `null` fails as an invalid record. Any other stored record reads as `FromMetadata` of that record |
| `PackageInfo.DefaultPackage` | www/localPackage.ts:476-485 | the default package carries the app version, and the binary hash exactly when that lookup succeeded; every other field is unset |
| `PackageInfo.GetPackageInfoOrDefault` | www/localPackage.ts:463-491 | a successful strict read is returned as is. Otherwise the result is the default package: the app version, plus the binary hash exactly when that lookup succeeds. It fails only when the app version cannot be had, and then with that error |
| `PackageInfo.GetPackageInfoOrNull` | www/localPackage.ts:493-495 | `None` exactly when the strict read fails, else the strict read's package |
| `PackageInfo.WriteCurrentPackageInformation` | www/localPackage.ts:347-350 | on success the current slot holds the record, every other entry is unchanged, and the only thing that can be added is the root folder. On failure nothing changes. It succeeds exactly when there is no write fault and the root folder exists or can be made |
| `PackageInfo.BackupPackageInformationFile` | www/localPackage.ts:357-388 | a missing current file is an error. On success the old slot holds the current slot's file. Nothing but the old slot ever changes |
| `PackageInfo.MetadataRoundTrip` | www/localPackage.ts:226-239 | a record written for a package reads back as that package in every identifying field. The app version is the native one, and the run flags come from the native side |
| `PackageInfo.BackupPreservesRecord` | www/localPackage.ts:357-388 | after a successful backup, reading the old slot gives what reading the current slot gave before |
| `PackageInfo.ReadVariantsAgree` | www/localPackage.ts:463-495 | the null read and the default read agree wherever the strict read succeeds. Where it fails, the default read gives the default package |
| `Verification.CheckHashes` | www/localPackage.ts:119-140 | succeeds exactly when the computed hash equals the server's hash and either there is no signed hash or it equals it too. The result says whether a signature was checked. Every failure is "package hash verification failed" |
| `Verification.SignatureCannotOverrideMismatch` | www/localPackage.ts:120-124 | a mismatch with the server's hash fails whatever the signature says. A signed success means all three hashes agree |
| `Verification.VerifyPackage` | www/localPackage.ts:116-151 | a failed hash computation and a failed signature call each give their prefixed error. When both calls answer, the result is `CheckHashes` of the computed hash, the server's hash and the signed hash. So success means the server's hash is the computed one, and with a signature, the signed one too |
| `Deployment.PackageLocation` | www/localPackage.ts:67 | the target is one level below the versions directory, named by the hash |
| `Deployment.HandleCleanDeployment` | www/localPackage.ts:246-263 | succeeds exactly when the target can be had, the unzip directory exists and the copy does not fail. On success the target holds the unzipped entries over what it held. A missing target or unzip directory fails with the fixed copy error; otherwise a copy fault reaches the caller as its own message. Nothing outside the target changes, and nothing is removed |
| `Deployment.BaseSource` | www/localPackage.ts:301-309 | the base is the current record's non-empty `localPath` when the record reads. Otherwise it is the bundled `www` |
| `Deployment.CopyLocalBase` | www/localPackage.ts:270-298 | copying the current package's directory succeeds exactly when the target and the base directory exist. It then overlays the base on the target |
| `Deployment.CopyBundledBase` | www/localPackage.ts:276-298 | the bundled `www` lands under `<target>/www` and nothing else changes outside the target |
| `Deployment.CopyCurrentPackage` | www/localPackage.ts:265-310 | confined to the target. On success the target holds the base over its earlier contents |
| `Deployment.HandleDiffDeployment` | www/localPackage.ts:312-340 | any failure of the base copy, the update copy or the manifest read gives "Cannot perform diff-update." and deletes nothing. An unparsable manifest stalls the callback chain. Completion needs a parsed manifest and no delete fault |
| `Deployment.DeleteListed` | www/localPackage.ts:323-333 | the deletion step changes nothing outside the target. It stalls exactly when the manifest does not parse, and its only error is "Cannot clean up deleted manifest files.". A delete fault never completes, and with the target present it gives that error |
| `Deployment.CopyLeavesTarget` | www/localPackage.ts:284-291 | on a file system where every entry's parent is a folder, a successful base copy leaves the target a directory. In the bundled case the target is created as the parent of `<target>/www` |
| `Deployment.DiffOutcome` | www/localPackage.ts:317-333 | "Cannot perform diff-update." is reported exactly when the base copy, the update copy or the manifest read fails. Past those, an unparsable manifest stalls and a delete fault reports "Cannot clean up deleted manifest files.". Otherwise the deployment completes or reports that clean-up error |
| `Deployment.DiffStepsSucceed` | www/localPackage.ts:317-322 | when none of the first steps fails, both copies succeed, the target is a directory and the manifest is unchanged |
| `Deployment.DiffLateOutcome` | www/localPackage.ts:322-333 | once both copies succeeded, the manifest and the delete fault alone decide between stalling, the clean-up error and completion |
| `Deployment.AcquireTarget` | www/localPackage.ts:206 | getting the target changes nothing outside it and nothing beneath it. A failure to get it is ignored |
| `Deployment.HandleDeployment` | www/localPackage.ts:205-218 | without a diff manifest this is a clean deployment. It never stalls, it completes exactly when the clean copy can, and a failure carries the clean deployment's error. With the manifest present the result is exactly the diff deployment over the acquired target. Nothing outside the target changes |
| `Deployment.DiffDeploymentMerges` | www/localPackage.ts:312-340 | a completed diff deployment leaves the update over the base over the old target, minus the manifest's deleted paths |
| `Deployment.DeploymentMergesDiff` | www/localPackage.ts:205-218 | with a manifest present, handleDeployment's result is that merge |
| `Deployment.DiffEqualsCleanOverPrunedBase` | www/localPackage.ts:317-327 | when the manifest deletes nothing the update carries, the diff result equals a clean deployment over the pruned base |
| `Deployment.CleanDeploymentShape` | www/localPackage.ts:246-263 | after a clean deployment the target and the unzip directory exist, and the unzip directory is unchanged |
| `Deployment.CleanDeploymentIdempotent` | www/localPackage.ts:246-263 | running the same clean deployment again changes nothing |
| `Install.GetDefaultInstallOptions` | www/localPackage.ts:501-511 | starting unset, the static is set once and always returns ON_NEXT_RESTART, 0, IMMEDIATE |
| `Install.FillUnset` | www/localPackage.ts:56-60 | fields the caller set are kept. Each unset field takes the default's value |
| `Install.FillUnsetAlgebra` | www/localPackage.ts:56-60 | filling from nothing, or filling nothing, returns the options unchanged. Filling is associative. Complete options ignore the defaults |
| `Install.ResolveInstallOptions` | www/localPackage.ts:56-60 | the options used are always complete. They are the defaults when none are given; given options are `FillUnset` over the defaults, so complete ones are used as they are |
| `Install.ResolveIdempotent` | www/localPackage.ts:56-60 | resolving resolved options changes nothing |
| `Install.ChosenMode` | www/localPackage.ts:174 | the mandatory install mode exactly when the package is mandatory |
| `Install.CleanStale` | www/localPackage.ts:100-109 | an existing unzip directory is emptied, or its removal error ends the run. Nothing outside it changes |
| `Install.Unzip` | www/localPackage.ts:84-95 | the unzip directory holds the archive over what it held. An unzip error is reported as "Could not unzip package. …" without stopping |
| `Install.CleanAndUnzip` | www/localPackage.ts:82-110 | fails only with the cleanup error or the directory error. A cleanup error on an existing directory always fails |
| `Install.CleanAndUnzipConfined` | www/localPackage.ts:82-110 | cleaning and unzipping change nothing outside the unzip directory but the folders leading to it |
| `Install.CleanAndUnzipFresh` | www/localPackage.ts:100-106 | after a successful unzip, the unzip directory holds exactly the archive's contents, with nothing left from an earlier attempt |
| `Install.UnzipKeepsSlots` | www/localPackage.ts:82-110 | cleaning and unzipping never touch the record slots |
| `Install.HandOff` | www/localPackage.ts:172-198 | preInstall always comes first, and its failure ends the trace with the prefixed error. The install call gets the directory, the chosen mode and the minimum background duration. IMMEDIATE reports success before the install call. Other modes report success exactly when preInstall and install succeed, and only after the install call; a failed install call then ends the trace with an error that carries no message. A hand-off whose preInstall succeeds, in IMMEDIATE mode or with a successful install call, reports success and no error. The install call happens at most once, and success is reported at most once: the trace has two events when preInstall fails and three otherwise |
| `Install.RecordPackage` | www/localPackage.ts:154-171 | on success the current slot holds the new record, and a failure leaves it as it was. The old slot changes only by a backup, which never happens while an update is pending. The outcome is the write's outcome. Nothing but the two slots and the `codepush` folder holding them changes |
| `Install.FinishInstall` | www/localPackage.ts:153-203 | a failed default read ends with the app-version error. A failed record write ends with exactly that write error. Once the record is written, the trace is the hand-off's. Success is reported only once the new record is current. The current slot changes only if preInstall is called. Nothing but the two slots and the `codepush` folder holding them changes |
| `Install.Deploy` | www/localPackage.ts:69-79 | a completed deployment finishes with `localPath` set to the target. A failed deployment ends the run with exactly its error message. A stalled one (an exception escaping the diff callback) ends it with no event |
| `Install.DeployGuardsSlots` | www/localPackage.ts:205-218 | deployment itself never touches the record slots |
| `Install.Install` | www/localPackage.ts:52-114 | a failed removal of a stale unzip directory ends the run with that removal error and nothing changed. An unzip directory that can be neither found nor made ends it with the directory error. After a successful unzip stage the run continues with verification and deployment, after the unzip events |
| `Install.VerifyAndDeploy` | www/localPackage.ts:74-79 | a verification error ends the run with that error. Otherwise the run deploys into the hash's versioned directory with the resolved options |
| `Install.InstallGuardsSlots` | www/localPackage.ts:52-114 | the current record changes only when the hand-off starts. The old record changes only by the backup, never while an update is pending, and only to the previous current record |
| `Install.InstallSucceedsAfterWrite` | www/localPackage.ts:168-185 | a reported success implies the current slot holds the new record pointing at the versioned directory |
| `Install.InstallCallArguments` | www/localPackage.ts:174-183 | every native install call gets the versioned directory, the mode chosen by the mandatory flag and the resolved minimum background duration |
| `Install.SlotsOnlyChangedUnder` | www/localPackage.ts:153-172 | a change confined to the two record slots and their folder leaves every versioned package directory exactly as it was |
| `Install.DeployHandsOverTarget` | www/localPackage.ts:69-79 | after finishing, the versioned directory holds exactly what handleDeployment left in it |
| `Install.InstallReachesHandOff` | www/localPackage.ts:52-114 | when unzip, verification, deployment, the default read and the record write succeed, the trace is the unzip events followed by the hand-off: preInstall is called with the versioned directory, then the install call with the chosen mode, and success is reported in IMMEDIATE mode or when the install call succeeds |
| `Install.HandOffNeedsVerifiedUnzip` | www/localPackage.ts:74-79 | preInstall is reached only past a successful unzip stage and a successful verification |
| `Install.InstallHandsOverDeployment` | www/localPackage.ts:52-114 | whenever preInstall is given the versioned directory, that directory holds exactly what handleDeployment left in it |
| `Install.FinishInstallCallArguments` | www/localPackage.ts:179-183 | the same, for finishInstall and its deployment directory |
| `Install.VerifyFailureStops` | www/localPackage.ts:121-124 | a failed verification leaves the slots and the versions directory untouched. It ends with the verification error, and every event is an error |
| `Install.UnzipErrorOnlyReported` | www/localPackage.ts:90-95 | a run with an unzip error is the error-free run with one extra error in front, and the same final tree |
| `Hex.PadLeft` | src/android/UpdateHashUtils.java:102 | padding gives the requested width, keeps the digits as the suffix, and fills every added place with `0` |
| `Hex.PadMatchesWidth` | src/android/UpdateHashUtils.java:102 | zero-padding the shortest hex digits of a number that fits gives its fixed-width digits |
| `Hex.DigestTextBytewise` | src/android/UpdateHashUtils.java:101-102 | `%064x` of the unsigned big-endian number equals two lowercase hex digits per digest byte |
| `Hex.DigestTextInjective` | src/android/UpdateHashUtils.java:101-102 | distinct digests have distinct texts |
| `Hex.Format064x` | src/android/UpdateHashUtils.java:102 | the text is at least 64 characters, and a number below 16^64 gets exactly its 64-digit lowercase hex form |
| `Hex.DigestText` | src/android/UpdateHashUtils.java:101-102 | the text of a SHA-256 digest is two lowercase hex digits per byte |
| `StringOrder.Sort` | src/android/UpdateHashUtils.java:44 | the result is sorted by `compareTo` and is a permutation of the input |
| `StringOrder.SortedUnique` | src/android/UpdateHashUtils.java:44 | two sorted lists with the same elements are equal |
| `StringOrder.SortIgnoresOrder` | src/android/UpdateHashUtils.java:44 | the sorted manifest depends only on the multiset of entries |
| `StringOrder.SortIdempotent` | src/android/UpdateHashUtils.java:44 | sorting a sorted manifest changes nothing |
| `HashManifest.Entries` | src/android/UpdateHashUtils.java:55-82 | the walk succeeds exactly when every directory it enters is non-empty; otherwise it fails with the open error. It yields one entry per file it reaches, each a key, a colon and 64 hex digits |
| `HashManifest.EntriesFollowLeaves` | src/android/UpdateHashUtils.java:55-82 | a readable walk yields, in depth-first listing order, one entry per file not under an ignored name. A file reached by names n1…nk is keyed `<prefix>/n1/…/nk/nk` and carries the digest of its own bytes |
| `HashManifest.ListingEntriesFollowLeaves` | src/android/UpdateHashUtils.java:62-71 | the same for a directory listing: each child's files follow under `<prefix>/<child>`, in listing order |
| `HashManifest.LeafEntriesBeneath` | src/android/UpdateHashUtils.java:68-70 | keying a child's files from the parent's prefix equals keying them from the prefix extended by the child's name |
| `HashManifest.ListingEntries` | src/android/UpdateHashUtils.java:62-71 | the same over a listing, skipping ignored names with everything beneath them |
| `HashManifest.FileEntry` | src/android/UpdateHashUtils.java:80 | an entry splits back into its key and its digest |
| `HashManifest.ManifestEntries` | src/android/UpdateHashUtils.java:36-43 | a missing root fails. Otherwise the walk fails exactly when a directory it enters is empty, and on success it yields the reference entries: one per reachable file, keyed under `www` by the names leading to it, each with its own digest |
| `HashManifest.GetHashForPath` | src/android/UpdateHashUtils.java:35-53 | succeeds exactly when the tree is readable, and fails with the open error otherwise. The value is the `%064x` text of the SHA-256 of the encoded JSON array of the sorted reference entries, written without slash escapes |
| `HashManifest.GetBinaryHash` | src/android/UpdateHashUtils.java:31-33 | the bundled assets, walked from `www`, hash as their sorted reference entries do; the hash exists exactly when the assets are present and readable |
| `HashManifest.KeyRepeatsName` | src/android/UpdateHashUtils.java:68-80 | a file directly in the root is keyed `www/<name>/<name>` |
| `HashManifest.IgnoredChildIrrelevant` | src/android/UpdateHashUtils.java:64-67 | `.codepushrelease` and `.DS_Store` contribute nothing wherever they are listed, even when their subtree could not be read |
| `HashManifest.ListingOrderIrrelevant` | src/android/UpdateHashUtils.java:58-71 | permuting a directory listing gives the same entries up to order |
| `HashManifest.ChildCongruence` | src/android/UpdateHashUtils.java:64-71 | replacing a child with one of the same entries keeps the directory's entries, so order independence holds at every depth |
| `HashManifest.HashDependsOnlyOnEntries` | src/android/UpdateHashUtils.java:44-52 | two walks with the same entries in any order hash alike |
| `HashManifest.BinaryHashMatchesDirectory` | src/android/UpdateHashUtils.java:31-42 | the bundled assets hash like a directory on disk holding the same non-empty tree, whatever its name |
| `HashManifest.ManifestTextUnescaped` | src/android/UpdateHashUtils.java:45-51 | removing the `\/` escapes gives exactly the array written without escaping slashes |
| `HashManifest.JsonArray` | src/android/UpdateHashUtils.java:45-48 | the text is bracketed by `[` and `]`, and is `[]` exactly when there are no entries |
| `HashManifest.ManifestText` | src/android/UpdateHashUtils.java:45-51 | the hashed text is the JSON array of the entries with slashes left unescaped |
| `HashManifest.UnescapeWithoutBackslash` | src/android/UpdateHashUtils.java:51 | `replace("\\/", "/")` leaves text without a backslash as it is |

## Left out

- Logging (`CodePushUtil.logMessage` and `logError`) is not modelled: it is output only.
- The deployment-failed status report (`Sdk.reportStatusDeploy`) always goes with an error callback. It is folded into the `Errored` event.
- The outer `try`/`catch` of `install` is not modelled. Every exception it could catch comes from callers' code or the platform.
- An exception inside an asynchronous callback is modelled as the callback chain stopping (`Deployment.Status.Stalled`).
- `FileUtil`, `zip.unzip`, `NativeAppInfo` and the `cordova.exec` native calls are outside the core.
  - They are modelled by their effect on the tree, or as answers in `Install.Env`.
  - Their faults are modelled only as "fails or not", plus a message where the message reaches the caller.
  - A failed deletion of the manifest's files is modelled as deleting nothing.
- The exact error objects built by `FileUtil.fileErrorToError` are not modelled. Three such errors reach the caller unchanged, and each is a message parameter:
  - the failed removal of a stale unzip directory (`Install.Env.staleCleanup`);
  - the failed copy of a clean deployment (`Deployment.DeployFaults.newCopy`);
  - the failed record write.
- FileTree.DirectoryError: when `getDataDirectory` cannot find or make the unzip directory, `install` passes its `innerError` on unchanged. The model reports the fixed message `DirectoryError` instead.
- Install.GetDefaultInstallOptions stands alone. `ResolveInstallOptions` uses `DefaultInstallOptions` directly, which is the only value the static ever holds.
- JSON text is not modelled. A stored record reads back as the record written. This is `JSON.stringify` followed by `JSON.parse` on a record of strings, numbers and booleans.
- Install.Deploy: requires the target to lie below the versions directory.
  - `localPackage.ts` builds the target by plain concatenation, so a `packageHash` holding `/` or `..` could point elsewhere.
  - The model treats the hash as one path segment.
- Deployment.DiffOutcome: assumes the data directory is a real file system, where every entry's parent is a folder. Without a delete fault it does not say whether the target can be got again after the deletions. It completes or reports the clean-up error, and which one depends on the manifest's paths.
- Deployment.CopyCurrentPackage: the merge property is stated only when the target does not lie inside the current package's directory. Copying a directory into itself is not meaningful for FileUtil either.
- Verification.VerifyPackage: the native hash is an abstract function of the unzipped tree. On Android it is `HashManifest.GetHashForPath` over that directory, but the two trees are not connected in this model.
- HashManifest.GetHashForPath: SHA-256 is an opaque function to 32 bytes, and `String.getBytes` is an opaque function to bytes, since the platform charset is not known. Streams, buffering and `IOException`s other than opening an empty directory as a file are not modelled.
- HashManifest.JsonArray: only the escapes of `"`, `\` and `/` are modelled. The `\b \f \n \r \t \uXXXX` escapes of control characters are not.
- StringOrder.Leq compares characters as Dafny `char`s (Unicode scalar values). `String.compareTo` compares UTF-16 code units; the two orders differ only on characters above U+FFFF.
- The listing order of `AssetManager.list` and `File.list` is a sequence the model takes as given. The hash does not depend on it (`HashManifest.ListingOrderIrrelevant`).

=== FILE: deployment.dfy ===
/** Deployment of an unzipped update into `codepush/deploy/versions/<hash>`
    (handleDeployment, handleCleanDeployment, copyCurrentPackage and
    handleDiffDeployment in localPackage.ts).

    A clean deployment copies the entries of the unzip directory over the
    target. A diff deployment first copies a base (the current package's
    directory, or the bundled `www` placed under `<target>/www` when there
    is no usable current record), then the unzipped entries, and then
    deletes the paths the diff manifest lists. Every step changes nothing
    outside the target but the folders leading to it (`Confined`). */
module Deployment {
  import opened Wrappers
  import opened FileTree
  import opened PackageInfo

  /** How a deployment callback ends: with the directory, with an error, or
      not at all because an exception escaped an asynchronous callback. */
  datatype Status = Completed | Failed(message: string) | Stalled

  datatype Deployed = Deployed(tree: DataTree, status: Status)

  /** Faults FileUtil may report while deploying: the base copy failing,
      the copy of the new files failing with a message, the deletion of the
      manifest's files failing. */
  datatype DeployFaults = DeployFaults(
    baseCopy: bool,
    newCopy: Option<string>,
    delete: bool)

  const CopyNewFailure := "Could not copy new package."
  const AcquireFailure := "Could not acquire the source/destination folders. "
  const BaseFailure := "The current package directory could not be copied."
  const DiffFailure := "Cannot perform diff-update."
  const CleanupFailure := "Cannot clean up deleted manifest files."

  /** The bundled web content inside the application directory, and where
      a diff deployment over the binary's version puts it in the target. */
  const BundledWww: Path := ["www"]

  /** newPackageLocation: the versioned directory of a package hash. */
  function PackageLocation(hash: string): (p: Path)
    ensures Below(VersionsDir, p) && p[|VersionsDir|..] == [hash]
  {
    VersionsDir + [hash]
  }

  /** A versioned package directory shares no subtree with the unzip
      directory or the two record slots. */
  lemma VersionsApart(target: Path)
    requires Below(VersionsDir, target)
    ensures Apart(target, DownloadUnzipDir) && Apart(target, CurrentSlot) && Apart(target, OldSlot)
    ensures Apart(target, DiffManifestPath)
  {
    assert target[1] == VersionsDir[1];
    assert Below(DownloadUnzipDir, DiffManifestPath);
    ApartPrefix(target, DownloadUnzipDir, DiffManifestPath);
  }

  /** handleCleanDeployment: copy the entries of the unzip directory over
      the target, which is created when missing. */
  function HandleCleanDeployment(t: DataTree, target: Path, faults: DeployFaults): (r: (DataTree, Result<()>))
    requires Below(VersionsDir, target)
    ensures r.1.Ok? <==> GetDirectory(t, target, true).Ok? && DirExists(t, DownloadUnzipDir) && faults.newCopy.None?
    ensures r.1.Err? ==> r.1.message == CopyNewFailure || faults.newCopy == Some(r.1.message)
    ensures !(GetDirectory(t, target, true).Ok? && DirExists(t, DownloadUnzipDir)) ==> r.1 == Err(CopyNewFailure)
    ensures GetDirectory(t, target, true).Ok? && DirExists(t, DownloadUnzipDir) && faults.newCopy.Some? ==>
      r.1 == Err(faults.newCopy.value)
    ensures r.1.Ok? ==> Under(r.0, target) == Overlay(Under(t, DownloadUnzipDir), Under(t, target))
    ensures Confined(t, r.0, target) && t.Keys <= r.0.Keys
  {
    VersionsApart(target);
    match GetDirectory(t, target, true)
    case Err(_) => (t, Err(CopyNewFailure))
    case Ok(t1) =>
      GetDirectoryConfined(t, target, target);
      ConfinedApart(t, t1, target, DownloadUnzipDir);
      if !DirExists(t1, DownloadUnzipDir) then (t1, Err(CopyNewFailure))
      else if faults.newCopy.Some? then (t1, Err(faults.newCopy.value))
      else
        var t2 := CopyEntries(t1, t1, DownloadUnzipDir, target);
        CopyEntriesConfined(t1, t1, DownloadUnzipDir, target, target);
        ConfinedTrans(t, t1, t2, target);
        ConfinedUnder(t, t1, target, DownloadUnzipDir);
        UnderGetDirectory(t, target, target);
        CopyEntriesUnder(t1, t1, DownloadUnzipDir, target);
        (t2, Ok(()))
  }

  /** Where copyCurrentPackage reads the base from: the current record's
      `localPath` when the record reads and the path is non-empty
      (`Some(path)`), otherwise the bundled `www` (`None`). */
  function BaseSource(t: DataTree, app: AppInfo): (r: Option<Path>)
    ensures r.Some? <==> (GetPackage(t, PackageInfoFile, app).Ok?
      && GetPackage(t, PackageInfoFile, app).value.localPath.Some?
      && GetPackage(t, PackageInfoFile, app).value.localPath.value != [])
    ensures r.Some? ==> r == GetPackage(t, PackageInfoFile, app).value.localPath
  {
    match GetPackage(t, PackageInfoFile, app)
    case Ok(p) => if p.localPath.Some? && p.localPath.value != [] then p.localPath else None
    case Err(_) => None
  }

  /** The bundled `www` directory with its contents, as it sits beneath the
      target after a diff deployment over the binary's version. */
  function BundledBase(appDir: DataTree): (b: DataTree)
    ensures BundledWww in b && b[BundledWww] == Folder
  {
    Place(Under(appDir, BundledWww), BundledWww)[BundledWww := Folder]
  }

  /** The base a diff deployment starts from, relative to the target. */
  function BaseTree(t: DataTree, appDir: DataTree, app: AppInfo): DataTree {
    match BaseSource(t, app)
    case Some(l) => Under(t, l)
    case None => BundledBase(appDir)
  }

  /** The copy of the current package's directory `l` into the target. */
  function CopyLocalBase(t: DataTree, target: Path, l: Path, faults: DeployFaults): (r: (DataTree, Result<()>))
    ensures Confined(t, r.0, target) && t.Keys <= r.0.Keys
    ensures r.1.Ok? <==> GetDirectory(t, target, true).Ok? && DirExists(GetDirectory(t, target, true).value, l) && !faults.baseCopy
    ensures r.1.Ok? && !Below(l, target) ==> Under(r.0, target) == Overlay(Under(t, l), Under(t, target))
  {
    match GetDirectory(t, target, true)
    case Err(_) => (t, Err(AcquireFailure))
    case Ok(t1) =>
      GetDirectoryConfined(t, target, target);
      if !DirExists(t1, l) || faults.baseCopy then (t1, Err(BaseFailure))
      else
        var t2 := CopyEntries(t1, t1, l, target);
        CopyEntriesConfined(t1, t1, l, target, target);
        ConfinedTrans(t, t1, t2, target);
        CopyEntriesUnder(t1, t1, l, target);
        UnderGetDirectory(t, target, target);
        assert !Below(l, target) ==> Under(t1, l) == Under(t, l) by {
          if !Below(l, target) {
            UnderGetDirectory(t, target, l);
          }
        }
        (t2, Ok(()))
  }

  /** The copy of the application's bundled `www` into `<target>/www`. */
  function CopyBundledBase(t: DataTree, target: Path, appDir: DataTree, faults: DeployFaults): (r: (DataTree, Result<()>))
    ensures Confined(t, r.0, target) && t.Keys <= r.0.Keys
    ensures r.1.Ok? <==> GetDirectory(t, target + BundledWww, true).Ok? && DirExists(appDir, BundledWww) && !faults.baseCopy
    ensures r.1.Ok? ==> Under(r.0, target) == Overlay(BundledBase(appDir), Under(t, target))
  {
    var dest := target + BundledWww;
    assert Below(target, dest);
    match GetDirectory(t, dest, true)
    case Err(_) => (t, Err(AcquireFailure))
    case Ok(t1) =>
      GetDirectoryConfined(t, dest, target);
      if !DirExists(appDir, BundledWww) || faults.baseCopy then (t1, Err(BaseFailure))
      else
        var t2 := CopyEntries(t1, appDir, BundledWww, dest);
        CopyEntriesConfined(t1, appDir, BundledWww, dest, target);
        ConfinedTrans(t, t1, t2, target);
        BundledCopyUnder(t, target, appDir);
        (t2, Ok(()))
  }

  lemma BundledCopyUnder(t: DataTree, target: Path, appDir: DataTree)
    requires GetDirectory(t, target + BundledWww, true).Ok?
    ensures var t1 := GetDirectory(t, target + BundledWww, true).value;
      Under(CopyEntries(t1, appDir, BundledWww, target + BundledWww), target) == Overlay(BundledBase(appDir), Under(t, target))
  {
    var t1 := GetDirectory(t, target + BundledWww, true).value;
    var P := Place(Under(appDir, BundledWww), BundledWww);
    CopyEntriesUnderNested(t1, appDir, BundledWww, target, BundledWww);
    UnderGetDirectoryChild(t, target, "www");
    PlaceIn(Under(appDir, BundledWww), BundledWww, BundledWww);
    UnderIn(appDir, BundledWww, []);
    OverlayUpdate(P, Under(t, target), BundledWww, Folder);
  }

  /** copyCurrentPackage: copy the base beneath the target, or the bundled
      `www` beneath `<target>/www`. */
  function CopyCurrentPackage(t: DataTree, target: Path, appDir: DataTree, app: AppInfo, faults: DeployFaults): (r: (DataTree, Result<()>))
    ensures Confined(t, r.0, target) && t.Keys <= r.0.Keys
    ensures faults.baseCopy ==> r.1.Err?
    ensures r.1.Ok? && BaseSource(t, app).None? ==> DirExists(appDir, BundledWww)
    ensures r.1.Ok? && (BaseSource(t, app).Some? ==> !Below(BaseSource(t, app).value, target)) ==>
      Under(r.0, target) == Overlay(BaseTree(t, appDir, app), Under(t, target))
  {
    match BaseSource(t, app)
    case Some(l) => CopyLocalBase(t, target, l, faults)
    case None => CopyBundledBase(t, target, appDir, faults)
  }

  /** The paths a manifest's `deletedFiles` names, relative to the target. */
  function Deletions(deleted: seq<Path>): set<Path> {
    set q | q in deleted
  }

  /** handleDiffDeployment. The base copy, the clean copy and the manifest
      read all run before any error is looked at; if one of them failed,
      nothing is deleted. A manifest that does not parse to an object with
      `deletedFiles` throws inside a callback, so no callback ever comes. */
  function HandleDiffDeployment(t: DataTree, target: Path, appDir: DataTree, app: AppInfo, faults: DeployFaults): (r: Deployed)
    requires Below(VersionsDir, target)
    ensures Confined(t, r.tree, target)
    ensures r.status.Failed? ==> r.status.message in {DiffFailure, CleanupFailure}
    ensures (CopyCurrentPackage(t, target, appDir, app, faults).1.Err? || faults.newCopy.Some?
      || !DirExists(t, DownloadUnzipDir) || !HasFile(t, DiffManifestPath)) ==> r.status == Failed(DiffFailure)
    ensures r.status == Failed(DiffFailure) ==> t.Keys <= r.tree.Keys
    ensures r.status.Stalled? ==> HasFile(t, DiffManifestPath) && !t[DiffManifestPath].content.ManifestJson?
    ensures r.status.Completed? ==> HasFile(t, DiffManifestPath) && t[DiffManifestPath].content.ManifestJson? && !faults.delete
  {
    VersionsApart(target);
    var (t1, copied) := CopyCurrentPackage(t, target, appDir, app, faults);
    var (t2, cleaned) := HandleCleanDeployment(t1, target, faults);
    ConfinedTrans(t, t1, t2, target);
    ConfinedApart(t, t1, target, DownloadUnzipDir);
    ConfinedApart(t, t2, target, DiffManifestPath);
    if !HasFile(t2, DiffManifestPath) || copied.Err? || cleaned.Err? then Deployed(t2, Failed(DiffFailure))
    else
      var r := DeleteListed(t2, target, faults);
      ConfinedTrans(t, t2, r.tree, target);
      r
  }

  /** The last step of handleDiffDeployment, once both copies succeeded:
      read the manifest, delete the paths its `deletedFiles` lists beneath
      the target, and get the target once more. */
  function DeleteListed(t: DataTree, target: Path, faults: DeployFaults): (r: Deployed)
    requires HasFile(t, DiffManifestPath)
    ensures Confined(t, r.tree, target)
    ensures r.status.Stalled? <==> !t[DiffManifestPath].content.ManifestJson?
    ensures r.status.Failed? ==> r.status == Failed(CleanupFailure)
    ensures r.status.Completed? ==> !faults.delete
    ensures faults.delete && DirExists(t, target) && t[DiffManifestPath].content.ManifestJson? ==> r.status == Failed(CleanupFailure)
  {
    match t[DiffManifestPath].content
    case ManifestJson(deleted) =>
      var t1 := if faults.delete then t else DeletePaths(t, Beneath(target, Deletions(deleted)));
      DeleteConfined(t, target, Deletions(deleted));
      (match GetDirectory(t1, target, true)
       case Err(_) => Deployed(t1, Failed(CleanupFailure))
       case Ok(t2) =>
         GetDirectoryConfined(t1, target, target);
         ConfinedTrans(t, t1, t2, target);
         if faults.delete then Deployed(t2, Failed(CleanupFailure)) else Deployed(t2, Completed))
    case _ => Deployed(t, Stalled)
  }

  /** The first step of handleDeployment: get (or create) the target, whose
      outcome is not looked at. */
  function AcquireTarget(t: DataTree, target: Path): (t0: DataTree)
    ensures Confined(t, t0, target) && Under(t0, target) == Under(t, target)
    ensures GetDirectory(t, target, true).Ok? ==> t0 == GetDirectory(t, target, true).value
    ensures GetDirectory(t, target, true).Err? ==> t0 == t
  {
    if GetDirectory(t, target, true).Ok? then
      GetDirectoryConfined(t, target, target);
      UnderGetDirectory(t, target, target);
      GetDirectory(t, target, true).value
    else t
  }

  /** handleDeployment: a diff deployment exactly when the unzipped update
      carries `hotcodepush.json`, a clean one otherwise. */
  function HandleDeployment(t: DataTree, target: Path, appDir: DataTree, app: AppInfo, faults: DeployFaults): (r: Deployed)
    requires Below(VersionsDir, target)
    ensures Confined(t, r.tree, target)
    ensures !HasFile(t, DiffManifestPath) ==> (!r.status.Stalled?
      && (r.status.Completed? <==> GetDirectory(t, target, true).Ok? && DirExists(t, DownloadUnzipDir) && faults.newCopy.None?))
    ensures !HasFile(t, DiffManifestPath) && r.status.Completed? ==>
      Under(r.tree, target) == Overlay(Under(t, DownloadUnzipDir), Under(t, target))
    ensures HasFile(t, DiffManifestPath) && r.status.Failed? ==> r.status.message in {DiffFailure, CleanupFailure}
    ensures HasFile(t, DiffManifestPath) ==> r == HandleDiffDeployment(AcquireTarget(t, target), target, appDir, app, faults)
    ensures !HasFile(t, DiffManifestPath) ==>
      var clean := HandleCleanDeployment(AcquireTarget(t, target), target, faults);
      r.tree == clean.0 && (r.status.Failed? <==> clean.1.Err?) && (r.status.Failed? ==> r.status.message == clean.1.message)
  {
    VersionsApart(target);
    var t0 := AcquireTarget(t, target);
    ConfinedApart(t, t0, target, DiffManifestPath);
    ConfinedApart(t, t0, target, DownloadUnzipDir);
    ConfinedUnder(t, t0, target, DownloadUnzipDir);
    if HasFile(t0, DiffManifestPath) then
      var r := HandleDiffDeployment(t0, target, appDir, app, faults);
      ConfinedTrans(t, t0, r.tree, target);
      r
    else
      var (t1, cleaned) := HandleCleanDeployment(t0, target, faults);
      ConfinedTrans(t, t0, t1, target);
      Deployed(t1, if cleaned.Ok? then Completed else Failed(cleaned.message))
  }

  // ---------------------------------------------------------------------
  // Properties of deployment.

  /** A completed diff deployment leaves beneath the target the base, then
      the unzipped update over it, minus the manifest's deleted paths. */
  lemma DiffDeploymentMerges(t: DataTree, target: Path, appDir: DataTree, app: AppInfo, faults: DeployFaults, deleted: seq<Path>)
    requires Below(VersionsDir, target)
    requires HasFile(t, DiffManifestPath) && t[DiffManifestPath].content == ManifestJson(deleted)
    requires BaseSource(t, app).Some? ==> !Below(BaseSource(t, app).value, target)
    requires HandleDiffDeployment(t, target, appDir, app, faults).status.Completed?
    ensures Under(HandleDiffDeployment(t, target, appDir, app, faults).tree, target)
         == DeletePaths(Overlay(Under(t, DownloadUnzipDir), Overlay(BaseTree(t, appDir, app), Under(t, target))), Deletions(deleted))
  {
    VersionsApart(target);
    var (t1, copied) := CopyCurrentPackage(t, target, appDir, app, faults);
    var t2 := HandleCleanDeployment(t1, target, faults).0;
    var t3 := DeletePaths(t2, Beneath(target, Deletions(deleted)));
    DiffCompletedTree(t, target, appDir, app, faults, deleted);
    ConfinedUnder(t, t1, target, DownloadUnzipDir);
    UnderDelete(t2, target, Deletions(deleted));
    UnderGetDirectory(t3, target, target);
    assert Under(t2, target) == Overlay(Under(t, DownloadUnzipDir), Overlay(BaseTree(t, appDir, app), Under(t, target)));
  }

  /** The tree a completed diff deployment leaves: both copies succeeded,
      the deletions ran, and the target was got once more. */
  lemma DiffCompletedTree(t: DataTree, target: Path, appDir: DataTree, app: AppInfo, faults: DeployFaults, deleted: seq<Path>)
    requires Below(VersionsDir, target)
    requires HasFile(t, DiffManifestPath) && t[DiffManifestPath].content == ManifestJson(deleted)
    requires HandleDiffDeployment(t, target, appDir, app, faults).status.Completed?
    ensures var (t1, copied) := CopyCurrentPackage(t, target, appDir, app, faults);
      var (t2, cleaned) := HandleCleanDeployment(t1, target, faults);
      var t3 := DeletePaths(t2, Beneath(target, Deletions(deleted)));
      && copied.Ok? && cleaned.Ok? && !faults.delete
      && GetDirectory(t3, target, true).Ok?
      && HandleDiffDeployment(t, target, appDir, app, faults).tree == GetDirectory(t3, target, true).value
  {
    VersionsApart(target);
    var (t1, copied) := CopyCurrentPackage(t, target, appDir, app, faults);
    var t2 := HandleCleanDeployment(t1, target, faults).0;
    ConfinedTrans(t, t1, t2, target);
    ConfinedApart(t, t2, target, DiffManifestPath);
    assert t2[DiffManifestPath] == t[DiffManifestPath];
  }

  /** The same, for handleDeployment: with a manifest present the diff route
      is taken, and its result is the merge of base, update and deletions
      over what the target held before. */
  lemma DeploymentMergesDiff(t: DataTree, target: Path, appDir: DataTree, app: AppInfo, faults: DeployFaults, deleted: seq<Path>)
    requires Below(VersionsDir, target)
    requires HasFile(t, DiffManifestPath) && t[DiffManifestPath].content == ManifestJson(deleted)
    requires BaseSource(t, app).Some? ==> !Below(BaseSource(t, app).value, target)
    requires HandleDeployment(t, target, appDir, app, faults).status.Completed?
    ensures Under(HandleDeployment(t, target, appDir, app, faults).tree, target)
         == DeletePaths(Overlay(Under(t, DownloadUnzipDir), Overlay(BaseTree(t, appDir, app), Under(t, target))), Deletions(deleted))
  {
    VersionsApart(target);
    var t0 := AcquireTarget(t, target);
    ConfinedApart(t, t0, target, DiffManifestPath);
    ConfinedUnder(t, t0, target, DownloadUnzipDir);
    AcquireKeepsBase(t, target, appDir, app);
    assert HandleDeployment(t, target, appDir, app, faults) == HandleDiffDeployment(t0, target, appDir, app, faults);
    DiffDeploymentMerges(t0, target, appDir, app, faults, deleted);
  }

  /** A successful base copy leaves the target a directory. */
  lemma CopyLeavesTarget(t: DataTree, target: Path, appDir: DataTree, app: AppInfo, faults: DeployFaults)
    requires Below(VersionsDir, target) && ParentsPresent(t)
    ensures CopyCurrentPackage(t, target, appDir, app, faults).1.Ok? ==> DirExists(CopyCurrentPackage(t, target, appDir, app, faults).0, target)
  {
    if CopyCurrentPackage(t, target, appDir, app, faults).1.Ok? {
      match BaseSource(t, app)
      case Some(l) =>
        var t1 := GetDirectory(t, target, true).value;
        CopyEntriesOutside(t1, t1, l, target, target);
      case None =>
        var dest := target + BundledWww;
        GetDirectoryParent(t, target, "www");
        CopyEntriesOutside(GetDirectory(t, dest, true).value, appDir, BundledWww, dest, target);
    }
  }

  /** One of the steps a diff deployment runs before looking at errors
      fails: the base copy, the update copy, or the manifest read. */
  predicate DiffStepFails(t: DataTree, target: Path, appDir: DataTree, app: AppInfo, faults: DeployFaults) {
    CopyCurrentPackage(t, target, appDir, app, faults).1.Err? || faults.newCopy.Some?
      || !DirExists(t, DownloadUnzipDir) || !HasFile(t, DiffManifestPath)
  }

  /** Which way a diff deployment ends. It reports "Cannot perform
      diff-update." exactly when one of its first steps fails. Past those, a
      manifest that does not parse stalls, a delete fault gives "Cannot
      clean up deleted manifest files.", and otherwise the deployment
      completes or reports that same clean-up error. The data directory is
      taken to be a real file system. */
  lemma DiffOutcome(t: DataTree, target: Path, appDir: DataTree, app: AppInfo, faults: DeployFaults)
    requires Below(VersionsDir, target) && ParentsPresent(t)
    ensures var r := HandleDiffDeployment(t, target, appDir, app, faults);
      var early := DiffStepFails(t, target, appDir, app, faults);
      && (r.status == Failed(DiffFailure) <==> early)
      && (!early && !t[DiffManifestPath].content.ManifestJson? ==> r.status == Stalled)
      && (!early && t[DiffManifestPath].content.ManifestJson? && faults.delete ==> r.status == Failed(CleanupFailure))
      && (!early && t[DiffManifestPath].content.ManifestJson? ==> r.status in {Completed, Failed(CleanupFailure)})
  {
    if !DiffStepFails(t, target, appDir, app, faults) {
      DiffStepsSucceed(t, target, appDir, app, faults);
      DiffLateOutcome(t, target, appDir, app, faults);
    }
  }

  /** When none of the first steps fails, both copies succeed, the target is
      still a directory and the manifest is unchanged. */
  lemma DiffStepsSucceed(t: DataTree, target: Path, appDir: DataTree, app: AppInfo, faults: DeployFaults)
    requires Below(VersionsDir, target) && ParentsPresent(t)
    requires !DiffStepFails(t, target, appDir, app, faults)
    ensures var (t1, copied) := CopyCurrentPackage(t, target, appDir, app, faults);
      var (t2, cleaned) := HandleCleanDeployment(t1, target, faults);
      && copied.Ok? && cleaned.Ok? && DirExists(t2, target)
      && HasFile(t2, DiffManifestPath) && t2[DiffManifestPath] == t[DiffManifestPath]
  {
    VersionsApart(target);
    var (t1, copied) := CopyCurrentPackage(t, target, appDir, app, faults);
    CopyLeavesTarget(t, target, appDir, app, faults);
    ConfinedApart(t, t1, target, DownloadUnzipDir);
    var t2 := HandleCleanDeployment(t1, target, faults).0;
    ConfinedTrans(t, t1, t2, target);
    ConfinedApart(t, t2, target, DiffManifestPath);
    CopyEntriesOutside(t1, t1, DownloadUnzipDir, target, target);
  }

  /** Once both copies succeeded, the manifest alone and the delete fault
      decide how the diff deployment ends. */
  lemma DiffLateOutcome(t: DataTree, target: Path, appDir: DataTree, app: AppInfo, faults: DeployFaults)
    requires Below(VersionsDir, target) && HasFile(t, DiffManifestPath)
    requires var (t1, copied) := CopyCurrentPackage(t, target, appDir, app, faults);
      var (t2, cleaned) := HandleCleanDeployment(t1, target, faults);
      && copied.Ok? && cleaned.Ok? && DirExists(t2, target)
      && HasFile(t2, DiffManifestPath) && t2[DiffManifestPath] == t[DiffManifestPath]
    ensures var r := HandleDiffDeployment(t, target, appDir, app, faults);
      && (!t[DiffManifestPath].content.ManifestJson? ==> r.status == Stalled)
      && (t[DiffManifestPath].content.ManifestJson? && faults.delete ==> r.status == Failed(CleanupFailure))
      && (t[DiffManifestPath].content.ManifestJson? ==> r.status in {Completed, Failed(CleanupFailure)})
  {
    var t2 := HandleCleanDeployment(CopyCurrentPackage(t, target, appDir, app, faults).0, target, faults).0;
    assert HandleDiffDeployment(t, target, appDir, app, faults) == DeleteListed(t2, target, faults);
  }

  /** Getting the target changes neither the current record nor the base
      read from it, unless that base lies beneath the target. */
  lemma AcquireKeepsBase(t: DataTree, target: Path, appDir: DataTree, app: AppInfo)
    requires Below(VersionsDir, target)
    requires BaseSource(t, app).Some? ==> !Below(BaseSource(t, app).value, target)
    ensures BaseSource(AcquireTarget(t, target), app) == BaseSource(t, app)
    ensures BaseTree(AcquireTarget(t, target), appDir, app) == BaseTree(t, appDir, app)
  {
    var t0 := AcquireTarget(t, target);
    VersionsApart(target);
    ConfinedApart(t, t0, target, CurrentSlot);
    GetPackageFrame(t, t0, PackageInfoFile, app);
    if BaseSource(t, app).Some? && GetDirectory(t, target, true).Ok? {
      UnderGetDirectory(t, target, BaseSource(t, app).value);
    }
  }

  /** Diff-merge equivalence: when the manifest deletes nothing the update
      itself carries, the diff result is a clean deployment of the update
      over the pruned base. */
  lemma DiffEqualsCleanOverPrunedBase(t: DataTree, target: Path, appDir: DataTree, app: AppInfo, faults: DeployFaults, deleted: seq<Path>)
    requires Below(VersionsDir, target)
    requires HasFile(t, DiffManifestPath) && t[DiffManifestPath].content == ManifestJson(deleted)
    requires BaseSource(t, app).Some? ==> !Below(BaseSource(t, app).value, target)
    requires HandleDeployment(t, target, appDir, app, faults).status.Completed?
    requires Deletions(deleted) !! Under(t, DownloadUnzipDir).Keys
    ensures Under(HandleDeployment(t, target, appDir, app, faults).tree, target)
         == Overlay(Under(t, DownloadUnzipDir), DeletePaths(Overlay(BaseTree(t, appDir, app), Under(t, target)), Deletions(deleted)))
  {
    DeploymentMergesDiff(t, target, appDir, app, faults, deleted);
    DeleteUnderOverlay(Under(t, DownloadUnzipDir), Overlay(BaseTree(t, appDir, app), Under(t, target)), Deletions(deleted));
  }

  /** What a successful clean deployment leaves: the target exists, the
      unzip directory is intact, and the tree is the copy's result. */
  lemma CleanDeploymentShape(t: DataTree, target: Path, faults: DeployFaults)
    requires Below(VersionsDir, target)
    requires HandleCleanDeployment(t, target, faults).1.Ok?
    ensures var tA := GetDirectory(t, target, true).value;
      var t1 := HandleCleanDeployment(t, target, faults).0;
      && t1 == Overlay(Place(Under(tA, DownloadUnzipDir), target), tA)
      && DirExists(t1, target) && DirExists(t1, DownloadUnzipDir)
      && Under(t1, DownloadUnzipDir) == Under(tA, DownloadUnzipDir)
  {
    VersionsApart(target);
    var tA := GetDirectory(t, target, true).value;
    var t1 := HandleCleanDeployment(t, target, faults).0;
    PlaceIn(Under(tA, DownloadUnzipDir), target, target);
    UnderIn(tA, DownloadUnzipDir, []);
    ConfinedApart(t, t1, target, DownloadUnzipDir);
    CopyEntriesConfined(tA, tA, DownloadUnzipDir, target, target);
    ConfinedUnder(tA, t1, target, DownloadUnzipDir);
  }

  /** Running the same clean deployment again changes nothing. */
  lemma CleanDeploymentIdempotent(t: DataTree, target: Path, faults: DeployFaults)
    requires Below(VersionsDir, target)
    requires HandleCleanDeployment(t, target, faults).1.Ok?
    ensures var t1 := HandleCleanDeployment(t, target, faults).0;
      HandleCleanDeployment(t1, target, faults) == (t1, Ok(()))
  {
    var tA := GetDirectory(t, target, true).value;
    var t1 := HandleCleanDeployment(t, target, faults).0;
    CleanDeploymentShape(t, target, faults);
    var P := Place(Under(tA, DownloadUnzipDir), target);
    assert GetDirectory(t1, target, true) == Ok(t1);
    assert CopyEntries(t1, t1, DownloadUnzipDir, target) == Overlay(P, Overlay(P, tA)) == t1;
  }
}

=== FILE: file_tree.dfy ===
/** The application-private data directory as an immutable value.

    A tree maps every path that exists to what sits there: a `Folder` or a
    `File` with some content. Paths are sequences of path segments, relative
    to the data root; the root itself (`[]`) always exists and is never a
    key. The file primitives the install pipeline relies on (recursive copy
    of directory entries, recursive removal, deleting named paths, getting a
    directory with or without creating it) are pure functions on trees.

    Membership in the re-keyed trees is stated by the pointwise lemmas
    `UnderIn`, `PlaceIn` and `AncestryIn`, which proofs call explicitly. */
module FileTree {
  import opened Wrappers

  type Path = seq<string>

  datatype Entry<C> = Folder | File(content: C)

  type Tree<C> = map<Path, Entry<C>>

  /** `p` lies strictly beneath `dir`. */
  predicate Below(dir: Path, p: Path) {
    |dir| < |p| && p[..|dir|] == dir
  }

  /** Neither path is an ancestor-or-self of the other. */
  predicate Apart(a: Path, b: Path) {
    exists i :: 0 <= i < |a| && i < |b| && a[i] != b[i]
  }

  /** The entries strictly beneath `dir`, re-keyed relative to `dir`: what a
      copy of "the entries of directory `dir`" reads. */
  function Under<C>(t: Tree<C>, dir: Path): Tree<C> {
    var keys := set p | p in t && Below(dir, p) :: p[|dir|..];
    assert forall q :: q in keys ==> dir + q in t by {
      forall q | q in keys ensures dir + q in t {
        var p :| p in t && Below(dir, p) && p[|dir|..] == q;
        assert p == dir + q;
      }
    }
    map q | q in keys :: t[dir + q]
  }

  /** `t` re-rooted at `dir`. */
  function Place<C>(t: Tree<C>, dir: Path): Tree<C> {
    var keys := set q | q in t :: dir + q;
    assert forall p :: p in keys ==> |dir| <= |p| && p[|dir|..] in t by {
      forall p | p in keys ensures |dir| <= |p| && p[|dir|..] in t {
        var q :| q in t && dir + q == p;
        assert p[|dir|..] == q;
      }
    }
    map p | p in keys :: t[p[|dir|..]]
  }

  /** Copy every entry of `src` onto `dst`, replacing what was at the same
      path and adding what was not there. */
  function Overlay<C>(src: Tree<C>, dst: Tree<C>): Tree<C> {
    dst + src
  }

  /** Remove exactly the named paths. */
  function DeletePaths<C>(t: Tree<C>, paths: set<Path>): Tree<C> {
    t - paths
  }

  /** The paths `rel`, taken relative to `dir`. */
  function Beneath(dir: Path, rel: set<Path>): set<Path> {
    set q | q in rel :: dir + q
  }

  /** Remove `dir` together with everything beneath it. */
  function RemoveRecursively<C>(t: Tree<C>, dir: Path): (r: Tree<C>)
    ensures forall p :: p in r <==> p in t && p != dir && !Below(dir, p)
    ensures forall p :: p in r ==> r[p] == t[p]
  {
    map p | p in t && p != dir && !Below(dir, p) :: t[p]
  }

  /** A directory exists at `dir`; the data root always does. */
  predicate DirExists<C>(t: Tree<C>, dir: Path) {
    dir == [] || (dir in t && t[dir].Folder?)
  }

  /** Some ancestor-or-self of `dir` is a file, so no directory can be
      created there. */
  predicate Blocked<C>(t: Tree<C>, dir: Path) {
    exists i :: 0 < i <= |dir| && dir[..i] in t && t[dir[..i]].File?
  }

  /** The non-empty prefixes of `dir`: the directories `mkdir -p` makes. */
  function Ancestry(dir: Path): set<Path> {
    set i | 0 < i <= |dir| :: dir[..i]
  }

  /** Create `dir` and its missing ancestors as folders. */
  function MakeDirs<C>(t: Tree<C>, dir: Path): Tree<C> {
    t + map p | p in Ancestry(dir) && p !in t :: Folder
  }

  /** Every entry's parent is present as a folder, as on a real file
      system. Trees in general need not be so; lemmas that need it say so. */
  predicate ParentsPresent<C>(t: Tree<C>) {
    forall p | p in t && |p| > 1 :: p[..|p| - 1] in t && t[p[..|p| - 1]].Folder?
  }

  const DirectoryError := "The directory could not be acquired."

  /** FileUtil.getDataDirectory: the directory if it exists; otherwise, when
      `create` holds and no file is in the way, the tree with it and its
      missing ancestors created. */
  function GetDirectory<C>(t: Tree<C>, dir: Path, create: bool): (r: Result<Tree<C>>)
    ensures r.Ok? <==> DirExists(t, dir) || (create && !Blocked(t, dir))
    ensures r.Err? ==> r.message == DirectoryError
    ensures r.Ok? ==> DirExists(r.value, dir) && t.Keys <= r.value.Keys <= t.Keys + Ancestry(dir)
    ensures DirExists(t, dir) ==> r == Ok(t)
  {
    if DirExists(t, dir) then Ok(t)
    else if create && !Blocked(t, dir) then
      AncestryIn(dir, dir);
      Ok(MakeDirs(t, dir))
    else Err(DirectoryError)
  }

  /** FileUtil.copyDirectoryEntriesTo: the entries beneath `src` in `from`
      (the tree itself, or another file system such as the application
      bundle) are copied beneath `dst`; `from` is read before the copy. */
  function CopyEntries<C>(t: Tree<C>, from: Tree<C>, src: Path, dst: Path): Tree<C> {
    Overlay(Place(Under(from, src), dst), t)
  }

  // ---------------------------------------------------------------------
  // Pointwise membership.

  lemma UnderIn<C>(t: Tree<C>, dir: Path, q: Path)
    ensures q in Under(t, dir) <==> q != [] && dir + q in t
    ensures q in Under(t, dir) ==> Under(t, dir)[q] == t[dir + q]
  {
    assert (dir + q)[..|dir|] == dir && (dir + q)[|dir|..] == q;
    if q in Under(t, dir) {
      var p :| p in t && Below(dir, p) && p[|dir|..] == q;
      assert p == dir + q;
    }
  }

  lemma PlaceIn<C>(t: Tree<C>, dir: Path, p: Path)
    ensures p in Place(t, dir) <==> |dir| <= |p| && p[..|dir|] == dir && p[|dir|..] in t
    ensures p in Place(t, dir) ==> Place(t, dir)[p] == t[p[|dir|..]]
  {
    if |dir| <= |p| && p[..|dir|] == dir && p[|dir|..] in t {
      assert p == dir + p[|dir|..];
    }
    if p in Place(t, dir) {
      var q :| q in t && dir + q == p;
      assert q == p[|dir|..];
      assert p[..|dir|] == dir;
    }
  }

  lemma AncestryIn(dir: Path, p: Path)
    ensures p in Ancestry(dir) <==> p != [] && |p| <= |dir| && dir[..|p|] == p
  {
    if p != [] && |p| <= |dir| && dir[..|p|] == p {
      assert p == dir[..|p|];
    }
  }

  /** An ancestor-or-self of `d` lying beneath `dir` puts `d` beneath it. */
  lemma AncestryBelow(d: Path, dir: Path, p: Path)
    requires p in Ancestry(d) && Below(dir, p)
    ensures Below(dir, d)
  {
    AncestryIn(d, p);
    assert d[..|dir|] == p[..|dir|];
  }

  /** Descendants of a path apart from `a` are apart from `a` too. */
  lemma ApartPrefix(a: Path, b: Path, p: Path)
    requires Apart(a, b) && (Below(b, p) || p == b)
    ensures Apart(a, p)
  {
    var i :| 0 <= i < |a| && i < |b| && a[i] != b[i];
    assert p[i] == b[i];
  }

  // ---------------------------------------------------------------------
  // The algebra of subtrees.

  lemma UnderOverlay<C>(a: Tree<C>, b: Tree<C>, dir: Path)
    ensures Under(Overlay(a, b), dir) == Overlay(Under(a, dir), Under(b, dir))
  {
    forall q
      ensures q in Under(Overlay(a, b), dir) <==> q in Overlay(Under(a, dir), Under(b, dir))
      ensures q in Under(Overlay(a, b), dir) ==> Under(Overlay(a, b), dir)[q] == Overlay(Under(a, dir), Under(b, dir))[q]
    {
      UnderIn(Overlay(a, b), dir, q);
      UnderIn(a, dir, q);
      UnderIn(b, dir, q);
    }
  }

  lemma UnderPlace<C>(t: Tree<C>, dir: Path)
    requires [] !in t
    ensures Under(Place(t, dir), dir) == t
  {
    forall q
      ensures q in Under(Place(t, dir), dir) <==> q in t
      ensures q in t ==> Under(Place(t, dir), dir)[q] == t[q]
    {
      UnderIn(Place(t, dir), dir, q);
      PlaceIn(t, dir, dir + q);
      assert (dir + q)[..|dir|] == dir && (dir + q)[|dir|..] == q;
    }
  }

  /** Re-rooting at `dir + sub` and looking beneath `dir` re-roots at `sub`. */
  lemma UnderPlaceNested<C>(t: Tree<C>, dir: Path, sub: Path)
    requires sub != []
    ensures Under(Place(t, dir + sub), dir) == Place(t, sub)
  {
    var big := Place(t, dir + sub);
    var l := Under(big, dir);
    var r := Place(t, sub);
    forall q
      ensures q in l <==> q in r
      ensures q in l ==> l[q] == r[q]
    {
      UnderIn(big, dir, q);
      PlaceIn(t, dir + sub, dir + q);
      PlaceIn(t, sub, q);
      if |sub| <= |q| {
        assert (dir + q)[..|dir + sub|] == dir + q[..|sub|];
        assert (dir + q)[|dir + sub|..] == q[|sub|..];
      }
    }
  }

  lemma UnderDelete<C>(t: Tree<C>, dir: Path, rel: set<Path>)
    ensures Under(DeletePaths(t, Beneath(dir, rel)), dir) == DeletePaths(Under(t, dir), rel)
  {
    var gone := Beneath(dir, rel);
    forall q
      ensures q in Under(DeletePaths(t, gone), dir) <==> q in DeletePaths(Under(t, dir), rel)
      ensures q in DeletePaths(Under(t, dir), rel) ==> Under(DeletePaths(t, gone), dir)[q] == Under(t, dir)[q]
    {
      UnderIn(DeletePaths(t, gone), dir, q);
      UnderIn(t, dir, q);
      assert dir + q in gone <==> q in rel by {
        assert forall q' :: dir + q' == dir + q ==> q' == (dir + q')[|dir|..] == q;
      }
    }
  }

  /** Creating a directory adds nothing strictly beneath a path that is not
      one of its ancestors. */
  lemma UnderGetDirectory<C>(t: Tree<C>, d: Path, dir: Path)
    requires GetDirectory(t, d, true).Ok? && !Below(dir, d)
    ensures Under(GetDirectory(t, d, true).value, dir) == Under(t, dir)
  {
    var t1 := GetDirectory(t, d, true).value;
    forall q
      ensures q in Under(t1, dir) <==> q in Under(t, dir)
      ensures q in Under(t, dir) ==> Under(t1, dir)[q] == Under(t, dir)[q]
    {
      UnderIn(t1, dir, q);
      UnderIn(t, dir, q);
      assert (dir + q)[..|dir|] == dir;
      if q != [] && dir + q !in t {
        assert dir + q in Ancestry(d) ==> Below(dir, d) by {
          if dir + q in Ancestry(d) {
            AncestryBelow(d, dir, dir + q);
          }
        }
      }
    }
  }

  lemma CopyEntriesUnder<C>(t: Tree<C>, from: Tree<C>, src: Path, dst: Path)
    ensures Under(CopyEntries(t, from, src, dst), dst) == Overlay(Under(from, src), Under(t, dst))
  {
    UnderOverlay(Place(Under(from, src), dst), t, dst);
    UnderIn(from, src, []);
    UnderPlace(Under(from, src), dst);
  }

  /** A copy beneath `dst` leaves every path not beneath `dst` alone. */
  lemma CopyEntriesOutside<C>(t: Tree<C>, from: Tree<C>, src: Path, dst: Path, p: Path)
    requires !Below(dst, p)
    ensures p in CopyEntries(t, from, src, dst) <==> p in t
    ensures p in t ==> CopyEntries(t, from, src, dst)[p] == t[p]
  {
    PlaceIn(Under(from, src), dst, p);
    UnderIn(from, src, []);
    assert |dst| <= |p| && p[..|dst|] == dst ==> p == dst || Below(dst, p);
  }

  /** Re-rooting beneath a deeper directory: what a copy to `dir + sub` adds
      is seen beneath `dir` at `sub`. */
  lemma CopyEntriesUnderNested<C>(t: Tree<C>, from: Tree<C>, src: Path, dir: Path, sub: Path)
    requires sub != []
    ensures Under(CopyEntries(t, from, src, dir + sub), dir) == Overlay(Place(Under(from, src), sub), Under(t, dir))
  {
    UnderOverlay(Place(Under(from, src), dir + sub), t, dir);
    UnderPlaceNested(Under(from, src), dir, sub);
  }

  lemma GetDirectoryIn<C>(t: Tree<C>, d: Path, create: bool, p: Path)
    requires GetDirectory(t, d, create).Ok?
    ensures p in GetDirectory(t, d, create).value ==> p in t || p in Ancestry(d)
    ensures p in t ==> p in GetDirectory(t, d, create).value && GetDirectory(t, d, create).value[p] == t[p]
  {
  }

  /** Getting `dir + [s]` (with creation) leaves `dir` a directory too. */
  lemma GetDirectoryParent<C>(t: Tree<C>, dir: Path, s: string)
    requires ParentsPresent(t) && dir != []
    requires GetDirectory(t, dir + [s], true).Ok?
    ensures DirExists(GetDirectory(t, dir + [s], true).value, dir)
  {
    var d := dir + [s];
    assert d[..|dir|] == dir;
    if DirExists(t, d) {
      assert d[..|d| - 1] == dir;
    } else {
      AncestryIn(d, dir);
      if dir in t {
        assert !t[dir].File?;
      }
    }
  }

  /** Getting `dir + [s]` adds at most the folder `s` beneath `dir`. */
  lemma UnderGetDirectoryChild<C>(t: Tree<C>, dir: Path, s: string)
    requires GetDirectory(t, dir + [s], true).Ok?
    ensures Under(GetDirectory(t, dir + [s], true).value, dir) == Under(t, dir)[[s] := Folder]
  {
    var l := Under(GetDirectory(t, dir + [s], true).value, dir);
    var r := Under(t, dir)[[s] := Folder];
    forall q
      ensures q in l <==> q in r
      ensures q in l ==> l[q] == r[q]
    {
      UnderGetDirectoryChildAt(t, dir, s, q);
    }
  }

  lemma UnderGetDirectoryChildAt<C>(t: Tree<C>, dir: Path, s: string, q: Path)
    requires GetDirectory(t, dir + [s], true).Ok?
    ensures var l := Under(GetDirectory(t, dir + [s], true).value, dir);
      (q in l <==> q in Under(t, dir)[[s] := Folder]) && (q in l ==> l[q] == Under(t, dir)[[s] := Folder][q])
  {
    var d := dir + [s];
    var t1 := GetDirectory(t, d, true).value;
    UnderIn(t1, dir, q);
    UnderIn(t, dir, q);
    GetDirectoryIn(t, d, true, dir + q);
    assert q != [] && dir + q in Ancestry(d) ==> q == [s] by {
      AncestryIn(d, dir + q);
      assert (dir + q)[|dir|..] == q && d[|dir|..] == [s];
    }
  }

  // ---------------------------------------------------------------------
  // Changes confined to one directory.

  /** Going from `t` to `t1` changed nothing outside `target` except that
      missing ancestors of `target` may have been created. */
  ghost predicate Confined<C>(t: Tree<C>, t1: Tree<C>, target: Path) {
    forall p :: p != target && !Below(target, p) ==>
      (p in t ==> p in t1 && t1[p] == t[p]) && (p in t1 ==> p in t || p in Ancestry(target))
  }

  lemma ConfinedTrans<C>(t: Tree<C>, t1: Tree<C>, t2: Tree<C>, target: Path)
    requires Confined(t, t1, target) && Confined(t1, t2, target)
    ensures Confined(t, t2, target)
  {
  }

  lemma GetDirectoryConfined<C>(t: Tree<C>, d: Path, target: Path)
    requires GetDirectory(t, d, true).Ok? && (d == target || Below(target, d))
    ensures Confined(t, GetDirectory(t, d, true).value, target)
  {
    forall p | p != target && !Below(target, p)
      ensures p in GetDirectory(t, d, true).value ==> p in t || p in Ancestry(target)
      ensures p in t ==> p in GetDirectory(t, d, true).value && GetDirectory(t, d, true).value[p] == t[p]
    {
      GetDirectoryIn(t, d, true, p);
      AncestryIn(d, p);
      AncestryIn(target, p);
      if p != [] && |p| <= |d| && d[..|p|] == p {
        assert target[..|p|] == d[..|p|];
      }
    }
  }

  lemma CopyEntriesConfined<C>(t: Tree<C>, from: Tree<C>, src: Path, dst: Path, target: Path)
    requires dst == target || Below(target, dst)
    ensures Confined(t, CopyEntries(t, from, src, dst), target)
  {
    forall p | p != target && !Below(target, p)
      ensures p in CopyEntries(t, from, src, dst) <==> p in t
      ensures p in t ==> CopyEntries(t, from, src, dst)[p] == t[p]
    {
      CopyEntriesOutside(t, from, src, dst, p);
    }
  }

  lemma DeleteConfined<C>(t: Tree<C>, target: Path, rel: set<Path>)
    ensures Confined(t, DeletePaths(t, Beneath(target, rel)), target)
  {
    forall p | p != target && !Below(target, p)
      ensures p !in Beneath(target, rel)
    {
      forall q | q in rel ensures target + q != p {
        assert (target + q)[..|target|] == target;
      }
    }
  }

  /** A path apart from the target is left alone. */
  lemma ConfinedApart<C>(t: Tree<C>, t1: Tree<C>, target: Path, p: Path)
    requires Confined(t, t1, target) && Apart(target, p)
    ensures p in t1 <==> p in t
    ensures p in t ==> t1[p] == t[p]
  {
    var i :| 0 <= i < |target| && i < |p| && target[i] != p[i];
    AncestryIn(target, p);
  }

  /** The subtree of a directory apart from the target is left alone. */
  lemma ConfinedUnder<C>(t: Tree<C>, t1: Tree<C>, target: Path, dir: Path)
    requires Confined(t, t1, target) && Apart(target, dir)
    ensures Under(t1, dir) == Under(t, dir)
  {
    forall q
      ensures q in Under(t1, dir) <==> q in Under(t, dir)
      ensures q in Under(t, dir) ==> Under(t1, dir)[q] == Under(t, dir)[q]
    {
      UnderIn(t1, dir, q);
      UnderIn(t, dir, q);
      if q != [] {
        assert (dir + q)[..|dir|] == dir;
        ApartPrefix(target, dir, dir + q);
        ConfinedApart(t, t1, target, dir + q);
      }
    }
  }

  /** An entry set beneath a copy that does not carry it survives it. */
  lemma OverlayUpdate<C>(a: Tree<C>, b: Tree<C>, k: Path, v: Entry<C>)
    requires k !in a
    ensures Overlay(a, b[k := v]) == Overlay(a[k := v], b)
  {
  }

  /** Deleting paths the overlaid tree does not carry commutes with the
      overlay. */
  lemma DeleteUnderOverlay<C>(a: Tree<C>, b: Tree<C>, d: set<Path>)
    requires d !! a.Keys
    ensures DeletePaths(Overlay(a, b), d) == Overlay(a, DeletePaths(b, d))
  {
  }

  /** After a recursive removal nothing is left beneath the directory, and
      nothing outside it changed. */
  lemma RemoveRecursivelyEmpties<C>(t: Tree<C>, dir: Path)
    ensures Under(RemoveRecursively(t, dir), dir) == map[]
    ensures Confined(t, RemoveRecursively(t, dir), dir)
  {
    forall q
      ensures q !in Under(RemoveRecursively(t, dir), dir)
    {
      UnderIn(RemoveRecursively(t, dir), dir, q);
      assert (dir + q)[..|dir|] == dir;
    }
  }
}

=== FILE: hash_manifest.dfy ===
/** The content hash of an update (getHashForPath and
    addFolderEntriesToManifest in UpdateHashUtils.java): walk the tree,
    make one "<key>:<digest>" entry per file, sort the entries, write them
    as a JSON array, and hash that text.

    The asset manager and the file system are one abstract tree; SHA-256
    and the platform's String.getBytes are parameters (`Crypto`). */
module HashManifest {
  import opened Wrappers
  import opened Hex
  import opened StringOrder

  /** A file with its bytes, or a directory with its listing in the order
      the platform lists it. */
  datatype Node = File(data: seq<byte>) | Folder(listing: seq<Child>)
  datatype Child = Child(name: string, node: Node)

  datatype Crypto = Crypto(sha256: seq<byte> -> Digest, encode: string -> seq<byte>)

  /** computeHash over a file's bytes. */
  function FileDigest(c: Crypto): seq<byte> -> DigestString {
    data => DigestText(c.sha256(data))
  }

  /** Names skipped at every depth, with everything beneath them. */
  const IgnoredFiles: set<string> := {".codepushrelease", ".DS_Store"}

  /** What opening an empty directory (or a missing path) as a file
      throws. */
  const OpenFailure := "the path could not be opened for hashing"

  /** Both entry points start the relative keys at "www". */
  const RootPrefix := "www"

  /** new File(parent, child).getPath() */
  function JoinPath(parent: string, child: string): string {
    parent + "/" + child
  }

  // ---------------------------------------------------------------------
  // Reference facts about a tree.

  /** Every directory the walk enters has something listed: an empty
      listing would be opened as a file, which fails. Ignored subtrees are
      never looked at. */
  predicate Readable(node: Node) {
    match node
    case File(_) => true
    case Folder(listing) => listing != [] && ListingReadable(listing)
  }

  predicate ListingReadable(listing: seq<Child>) {
    forall c | c in listing :: c.name in IgnoredFiles || Readable(c.node)
  }

  /** The files the walk reaches. */
  function LeafCount(node: Node): nat {
    match node
    case File(_) => 1
    case Folder(listing) => ListingLeafCount(listing)
  }

  function ListingLeafCount(listing: seq<Child>): nat {
    if listing == [] then 0
    else (if listing[0].name in IgnoredFiles then 0 else LeafCount(listing[0].node)) + ListingLeafCount(listing[1..])
  }

  /** A file the walk reaches: the names leading to it from the walked
      node (none when that node is itself the file), and its bytes. */
  datatype Leaf = Leaf(names: seq<string>, data: seq<byte>)

  /** The files beneath a node in depth-first listing order, skipping
      ignored names. */
  function Leaves(node: Node): seq<Leaf>
    decreases node, 1
  {
    match node
    case File(data) => [Leaf([], data)]
    case Folder(listing) => ListingLeaves(listing)
  }

  function ListingLeaves(listing: seq<Child>): seq<Leaf>
    decreases listing, 0
  {
    if listing == [] then []
    else
      var child := listing[0];
      assert listing == [child] + listing[1..];
      (if child.name in IgnoredFiles then [] else Beneath(child.name, Leaves(child.node))) + ListingLeaves(listing[1..])
  }

  /** The same files, seen one directory further up. */
  function Beneath(name: string, leaves: seq<Leaf>): (r: seq<Leaf>)
    ensures |r| == |leaves|
  {
    seq(|leaves|, i requires 0 <= i < |leaves| => Leaf([name] + leaves[i].names, leaves[i].data))
  }

  /** `prefix/n1/.../nk`. */
  function PathText(prefix: string, names: seq<string>): string
    decreases names
  {
    if names == [] then prefix else PathText(JoinPath(prefix, names[0]), names[1..])
  }

  /** The key of the file reached by `names` from a node called `name`
      whose entries are keyed under `prefix`: `prefix/n1/.../nk/nk`, the
      last name twice, or `prefix/name` when the node is the file. */
  function LeafKey(prefix: string, name: string, names: seq<string>): (k: string)
    ensures k != []
  {
    if names == [] then JoinPath(prefix, name)
    else JoinPath(PathText(prefix, names), names[|names| - 1])
  }

  /** The entries the files make, one per file and in the same order. */
  function LeafEntries(prefix: string, name: string, leaves: seq<Leaf>, digest: seq<byte> -> DigestString): (r: seq<string>)
    ensures |r| == |leaves|
  {
    seq(|leaves|, i requires 0 <= i < |leaves| => FileEntry(LeafKey(prefix, name, leaves[i].names), digest(leaves[i].data)))
  }

  /** The shape of one manifest entry: a key, a colon, 64 hex digits. */
  predicate EntryShape(e: string) {
    |e| > 65 && e[|e| - 65] == ':' && IsHexText(e[|e| - 64..])
  }


  // ---------------------------------------------------------------------
  // The walk.

  /** addFolderEntriesToManifest(prefix, path): `name` is the last segment
      of `path`. A directory with a non-empty listing is recursed into,
      each child under `prefix/child` and its own name; anything else is
      read as a file, whose key is `prefix/name`. Below the root the prefix
      already ends with the name, so the file www/index.html gets the key
      "www/index.html/index.html". */
  function Entries(prefix: string, name: string, node: Node, digest: seq<byte> -> DigestString): (r: Result<seq<string>>)
    decreases node, 1
    ensures r.Ok? <==> Readable(node)
    ensures r.Err? ==> r.message == OpenFailure
    ensures r.Ok? ==> |r.value| == LeafCount(node)
    ensures r.Ok? ==> forall e | e in r.value :: EntryShape(e)
  {
    match node
    case File(data) => Ok([FileEntry(JoinPath(prefix, name), digest(data))])
    case Folder(listing) =>
      if listing == [] then Err(OpenFailure) else ListingEntries(prefix, listing, digest)
  }

  /** The loop over a directory listing, in listing order; the first
      failure ends the walk. */
  function ListingEntries(prefix: string, listing: seq<Child>, digest: seq<byte> -> DigestString): (r: Result<seq<string>>)
    decreases listing, 0
    ensures r.Ok? <==> ListingReadable(listing)
    ensures r.Err? ==> r.message == OpenFailure
    ensures r.Ok? ==> |r.value| == ListingLeafCount(listing)
    ensures r.Ok? ==> forall e | e in r.value :: EntryShape(e)
  {
    if listing == [] then Ok([])
    else
      var child := listing[0];
      assert listing == [child] + listing[1..];
      var rest := ListingEntries(prefix, listing[1..], digest);
      if child.name in IgnoredFiles then rest
      else
        var first := Entries(JoinPath(prefix, child.name), child.name, child.node, digest);
        if first.Err? then first
        else if rest.Err? then rest
        else Ok(first.value + rest.value)
  }

  /** The manifest entry of one file: its key, a colon, its digest. */
  function FileEntry(key: string, digest: string): (e: string)
    requires key != [] && |digest| == 64 && IsHexText(digest)
    ensures EntryShape(e)
    ensures e[..|e| - 65] == key && e[|e| - 64..] == digest
  {
    var head := key + ":";
    var e := head + digest;
    assert |e| - 64 == |head| && |e| - 65 == |key|;
    assert e[|head|..] == digest;
    assert e[..|head|] == head && head[..|key|] == key;
    e
  }

  /** The walk yields, in order, one entry per file it reaches: the file's
      key by the names leading to it, and the file's digest. */
  lemma {:induction false} EntriesFollowLeaves(prefix: string, name: string, node: Node, digest: seq<byte> -> DigestString)
    requires Readable(node)
    ensures Entries(prefix, name, node, digest) == Ok(LeafEntries(prefix, name, Leaves(node), digest))
    decreases node, 1
  {
    match node
    case File(data) =>
      assert LeafEntries(prefix, name, Leaves(node), digest) == [FileEntry(JoinPath(prefix, name), digest(data))];
    case Folder(listing) =>
      ListingEntriesFollowLeaves(prefix, listing, digest);
      ListingKeysIgnoreName(prefix, name, listing, digest);
  }

  /** The same for a listing, whose files all lie beneath one of its
      children. */
  lemma {:induction false} ListingEntriesFollowLeaves(prefix: string, listing: seq<Child>, digest: seq<byte> -> DigestString)
    requires ListingReadable(listing)
    ensures ListingEntries(prefix, listing, digest) == Ok(LeafEntries(prefix, "", ListingLeaves(listing), digest))
    decreases listing, 0
  {
    if listing != [] {
      var child := listing[0];
      assert listing == [child] + listing[1..];
      ListingEntriesFollowLeaves(prefix, listing[1..], digest);
      if child.name in IgnoredFiles {
        assert ListingLeaves(listing) == [] + ListingLeaves(listing[1..]) == ListingLeaves(listing[1..]);
        assert ListingEntries(prefix, listing, digest) == ListingEntries(prefix, listing[1..], digest);
      } else {
        assert child in listing;
        EntriesFollowLeaves(JoinPath(prefix, child.name), child.name, child.node, digest);
        var below := Leaves(child.node);
        LeafEntriesBeneath(prefix, child.name, below, digest);
        LeafEntriesAppend(prefix, "", Beneath(child.name, below), ListingLeaves(listing[1..]), digest);
      }
    }
  }

  /** Entries of files one directory down: the directory's name joins the
      prefix. The name of the node walked is not part of their keys. */
  lemma LeafEntriesBeneath(prefix: string, child: string, leaves: seq<Leaf>, digest: seq<byte> -> DigestString)
    ensures LeafEntries(prefix, "", Beneath(child, leaves), digest) == LeafEntries(JoinPath(prefix, child), child, leaves, digest)
  {
    forall i | 0 <= i < |leaves|
      ensures LeafKey(prefix, "", [child] + leaves[i].names) == LeafKey(JoinPath(prefix, child), child, leaves[i].names)
    {
      var names := leaves[i].names;
      var all := [child] + names;
      assert all[1..] == names && all[0] == child;
      assert PathText(prefix, all) == PathText(JoinPath(prefix, child), names);
      if names != [] {
        assert all[|all| - 1] == names[|names| - 1];
      }
    }
  }

  lemma LeafEntriesAppend(prefix: string, name: string, a: seq<Leaf>, b: seq<Leaf>, digest: seq<byte> -> DigestString)
    ensures LeafEntries(prefix, name, a + b, digest) == LeafEntries(prefix, name, a, digest) + LeafEntries(prefix, name, b, digest)
  {
  }

  /** In a listing every file lies beneath a child, so the name of the
      directory plays no part in the keys. */
  lemma ListingKeysIgnoreName(prefix: string, name: string, listing: seq<Child>, digest: seq<byte> -> DigestString)
    ensures LeafEntries(prefix, name, ListingLeaves(listing), digest) == LeafEntries(prefix, "", ListingLeaves(listing), digest)
  {
    var leaves := ListingLeaves(listing);
    ListingLeavesNamed(listing);
    forall i | 0 <= i < |leaves|
      ensures LeafKey(prefix, name, leaves[i].names) == LeafKey(prefix, "", leaves[i].names)
    {
      assert leaves[i] in leaves;
    }
  }

  lemma {:induction false} ListingLeavesNamed(listing: seq<Child>)
    ensures forall l | l in ListingLeaves(listing) :: l.names != []
  {
    if listing != [] {
      ListingLeavesNamed(listing[1..]);
    }
  }

  /** The walk from the root: a missing path is read as a file too and
      fails the same way. */
  function ManifestEntries(root: Option<Node>, rootName: string, digest: seq<byte> -> DigestString): (r: Result<seq<string>>)
    ensures r.Ok? <==> root.Some? && Readable(root.value)
    ensures r.Ok? ==> |r.value| == LeafCount(root.value)
    ensures r.Ok? ==> r.value == LeafEntries(RootPrefix, rootName, Leaves(root.value), digest)
  {
    match root
    case None => Err(OpenFailure)
    case Some(node) =>
      var r := Entries(RootPrefix, rootName, node, digest);
      if r.Ok? then
        EntriesFollowLeaves(RootPrefix, rootName, node, digest);
        r
      else r
  }

  // ---------------------------------------------------------------------
  // Serialisation.

  /** org.json's escaping inside a string: quote, backslash and slash. */
  function EscapeChar(ch: char, escapeSlash: bool): string {
    if ch == '"' then "\\\""
    else if ch == '\\' then "\\\\"
    else if ch == '/' && escapeSlash then "\\/"
    else [ch]
  }

  function Escape(s: string, escapeSlash: bool): string {
    if s == [] then [] else EscapeChar(s[0], escapeSlash) + Escape(s[1..], escapeSlash)
  }

  function Items(entries: seq<string>, escapeSlash: bool): string {
    if entries == [] then []
    else "\"" + Escape(entries[0], escapeSlash) + "\"" + (if |entries| > 1 then "," else "") + Items(entries[1..], escapeSlash)
  }

  /** JSONArray.toString() over string entries (`escapeSlash`), or the
      same array with slashes left as they are. */
  function JsonArray(entries: seq<string>, escapeSlash: bool): (r: string)
    ensures |r| >= 2 && r[0] == '[' && r[|r| - 1] == ']'
    ensures entries == [] <==> r == "[]"
  {
    assert entries != [] ==> |Items(entries, escapeSlash)| >= 2;
    "[" + Items(entries, escapeSlash) + "]"
  }

  /** String.replace("\\/", "/"): every `\/`, scanning left to right.
      Text without a backslash is left as it is (UnescapeWithoutBackslash). */
  function UnescapeSlashes(s: string): (r: string)
  {
    if |s| >= 2 && s[0] == '\\' && s[1] == '/' then "/" + UnescapeSlashes(s[2..])
    else if s == [] then []
    else [s[0]] + UnescapeSlashes(s[1..])
  }

  /** The manifest text that gets hashed: the array as org.json writes it,
      with the slash escapes taken out again, which leaves the array
      written without them. */
  function ManifestText(entries: seq<string>): (r: string)
    ensures r == JsonArray(entries, false)
  {
    ManifestTextUnescaped(entries);
    UnescapeSlashes(JsonArray(entries, true))
  }

  /** getHashForPath: the hash of the sorted manifest, or the failure of
      the walk. `rootName` is the last segment of the walked path ("www"
      for the bundled assets). */
  function GetHashForPath(root: Option<Node>, rootName: string, c: Crypto): (r: Result<string>)
    ensures r.Ok? <==> root.Some? && Readable(root.value)
    ensures r.Err? ==> r.message == OpenFailure
    ensures r.Ok? ==> |r.value| == 64 && IsHexText(r.value)
    ensures r.Ok? ==> r.value == DigestText(c.sha256(c.encode(JsonArray(Sort(ReferenceEntries(root.value, rootName, c)), false))))
  {
    match ManifestEntries(root, rootName, FileDigest(c))
    case Err(e) => Err(e)
    case Ok(entries) => Ok(DigestText(c.sha256(c.encode(ManifestText(Sort(entries))))))
  }

  /** The entries of a tree by the reference: one per file the walk
      reaches, keyed by the names leading to it. */
  function ReferenceEntries(root: Node, rootName: string, c: Crypto): seq<string> {
    LeafEntries(RootPrefix, rootName, Leaves(root), FileDigest(c))
  }

  /** getBinaryHash: the bundled assets, walked from the path "www". */
  function GetBinaryHash(assets: Option<Node>, c: Crypto): (r: Result<string>)
    ensures r.Ok? <==> assets.Some? && Readable(assets.value)
    ensures r.Ok? ==> r.value == DigestText(c.sha256(c.encode(JsonArray(Sort(ReferenceEntries(assets.value, RootPrefix, c)), false))))
  {
    GetHashForPath(assets, RootPrefix, c)
  }

  // ---------------------------------------------------------------------
  // Properties.

  /** The key quirk: a file directly in the root directory has its name
      twice in its key. */
  lemma KeyRepeatsName(rootName: string, name: string, data: seq<byte>, digest: seq<byte> -> DigestString)
    requires name !in IgnoredFiles
    ensures Entries(RootPrefix, rootName, Folder([Child(name, File(data))]), digest)
         == Ok([RootPrefix + "/" + name + "/" + name + ":" + digest(data)])
  {
    var l := [Child(name, File(data))];
    assert l[1..] == [];
    var key := JoinPath(JoinPath(RootPrefix, name), name);
    assert key == RootPrefix + "/" + name + "/" + name;
    var e := FileEntry(key, digest(data));
    assert Entries(JoinPath(RootPrefix, name), name, File(data), digest) == Ok([e]);
    assert ListingEntries(RootPrefix, l, digest) == Ok([e] + []);
    assert [e] + [] == [e];
  }

  /** Walking a listing in two parts: both must succeed, and the entries
      are the two parts' entries in order. */
  lemma {:induction false} ListingSplit(prefix: string, a: seq<Child>, b: seq<Child>, digest: seq<byte> -> DigestString)
    ensures var ra, rb := ListingEntries(prefix, a, digest), ListingEntries(prefix, b, digest);
      ListingEntries(prefix, a + b, digest) == if ra.Ok? && rb.Ok? then Ok(ra.value + rb.value) else Err(OpenFailure)
  {
    if a == [] {
      EmptyConcat(b);
      var rb := ListingEntries(prefix, b, digest);
      if rb.Ok? {
        EmptyConcat(rb.value);
      }
    } else {
      ConsConcat(a, b);
      ListingSplit(prefix, a[1..], b, digest);
      var ra, rb := ListingEntries(prefix, a, digest), ListingEntries(prefix, b, digest);
      if ra.Ok? && rb.Ok? && a[0].name !in IgnoredFiles {
        var first := Entries(JoinPath(prefix, a[0].name), a[0].name, a[0].node, digest).value;
        var tail := ListingEntries(prefix, a[1..], digest).value;
        Associative(first, tail, rb.value);
      }
    }
  }

  lemma EmptyConcat<T>(s: seq<T>)
    ensures [] + s == s
  {
  }

  lemma ConsConcat<T>(a: seq<T>, b: seq<T>)
    requires a != []
    ensures (a + b)[0] == a[0] && (a + b)[1..] == a[1..] + b
  {
  }

  lemma Associative<T>(a: seq<T>, b: seq<T>, c: seq<T>)
    ensures a + (b + c) == (a + b) + c
  {
  }

  /** A child with an ignored name contributes nothing, wherever it is
      listed and whatever is beneath it, even a subtree that could not be
      read. */
  lemma IgnoredChildIrrelevant(prefix: string, a: seq<Child>, b: seq<Child>, ignored: Child, digest: seq<byte> -> DigestString)
    requires ignored.name in IgnoredFiles
    ensures ListingEntries(prefix, a + [ignored] + b, digest) == ListingEntries(prefix, a + b, digest)
  {
    ListingSplit(prefix, a + [ignored], b, digest);
    ListingSplit(prefix, a, [ignored], digest);
    ListingSplit(prefix, a, b, digest);
    assert ListingEntries(prefix, [ignored], digest) == Ok([]) by {
      assert [ignored][1..] == [];
    }
    var ra := ListingEntries(prefix, a, digest);
    if ra.Ok? {
      assert ra.value + [] == ra.value;
    }
  }

  /** Two walks agree up to order: both fail, or both succeed with the
      same entries. */
  predicate SameEntries(r1: Result<seq<string>>, r2: Result<seq<string>>) {
    (r1.Ok? <==> r2.Ok?) && (r1.Ok? ==> multiset(r1.value) == multiset(r2.value))
  }

  /** The listing order of a directory does not matter. */
  lemma {:induction false} ListingOrderIrrelevant(prefix: string, l1: seq<Child>, l2: seq<Child>, digest: seq<byte> -> DigestString)
    requires multiset(l1) == multiset(l2)
    ensures SameEntries(ListingEntries(prefix, l1, digest), ListingEntries(prefix, l2, digest))
  {
    if l1 == [] {
      assert |l2| == |multiset(l2)| == 0;
      assert l2 == [];
    } else {
      var x := l1[0];
      var before, after := PickOut(l1, l2);
      ListingOrderIrrelevant(prefix, l1[1..], before + after, digest);
      ListingSplit(prefix, [x], l1[1..], digest);
      ListingSplit(prefix, before + [x], after, digest);
      ListingSplit(prefix, before, [x], digest);
      ListingSplit(prefix, before, after, digest);
      var rx, rt := ListingEntries(prefix, [x], digest), ListingEntries(prefix, l1[1..], digest);
      var rb, ra := ListingEntries(prefix, before, digest), ListingEntries(prefix, after, digest);
      if rx.Ok? && rt.Ok? && rb.Ok? && ra.Ok? {
        Rearranged(rx.value, rt.value, rb.value, ra.value);
      }
    }
  }

  /** Replacing one child by another whose walk has the same entries keeps
      the directory's entries; with ListingOrderIrrelevant this gives order
      independence at every depth. */
  lemma ChildCongruence(prefix: string, a: seq<Child>, b: seq<Child>, name: string, n1: Node, n2: Node, digest: seq<byte> -> DigestString)
    requires SameEntries(Entries(JoinPath(prefix, name), name, n1, digest), Entries(JoinPath(prefix, name), name, n2, digest))
    ensures SameEntries(ListingEntries(prefix, a + [Child(name, n1)] + b, digest), ListingEntries(prefix, a + [Child(name, n2)] + b, digest))
  {
    ListingSplit(prefix, a + [Child(name, n1)], b, digest);
    ListingSplit(prefix, a + [Child(name, n2)], b, digest);
    ListingSplit(prefix, a, [Child(name, n1)], digest);
    ListingSplit(prefix, a, [Child(name, n2)], digest);
    assert [Child(name, n1)][1..] == [] && [Child(name, n2)][1..] == [];
  }

  /** A directory's entries depend only on its listing's entries. */
  lemma FolderCongruence(prefix: string, name: string, l1: seq<Child>, l2: seq<Child>, digest: seq<byte> -> DigestString)
    requires l1 != [] && l2 != []
    requires SameEntries(ListingEntries(prefix, l1, digest), ListingEntries(prefix, l2, digest))
    ensures SameEntries(Entries(prefix, name, Folder(l1), digest), Entries(prefix, name, Folder(l2), digest))
  {
  }

  /** The hash depends only on which entries the walk yields, so not on
      listing order at any depth. */
  lemma HashDependsOnlyOnEntries(root1: Option<Node>, root2: Option<Node>, name1: string, name2: string, c: Crypto)
    requires SameEntries(ManifestEntries(root1, name1, FileDigest(c)), ManifestEntries(root2, name2, FileDigest(c)))
    ensures GetHashForPath(root1, name1, c) == GetHashForPath(root2, name2, c)
  {
    var r1, r2 := ManifestEntries(root1, name1, FileDigest(c)), ManifestEntries(root2, name2, FileDigest(c));
    if r1.Ok? {
      SortIgnoresOrder(r1.value, r2.value);
    }
  }

  /** The bundled assets and a directory on disk holding the same tree
      hash alike: a directory's name never reaches the keys. */
  lemma BinaryHashMatchesDirectory(listing: seq<Child>, name: string, c: Crypto)
    requires listing != []
    ensures GetBinaryHash(Some(Folder(listing)), c) == GetHashForPath(Some(Folder(listing)), name, c)
  {
  }

  /** Removing the `\/` escapes of the written array gives the array
      written without escaping slashes. */
  lemma ManifestTextUnescaped(entries: seq<string>)
    ensures UnescapeSlashes(JsonArray(entries, true)) == JsonArray(entries, false)
  {
    var items := Items(entries, true);
    ItemsUnescape(entries, "]");
    ReplaceStep('[', items + "]");
    assert JsonArray(entries, true) == ['['] + (items + "]");
    assert UnescapeSlashes("]") == "]" by {
      assert "]"[1..] == [];
    }
  }

  /** Text without a backslash has nothing to unescape. */
  lemma {:induction false} UnescapeWithoutBackslash(s: string)
    requires '\\' !in s
    ensures UnescapeSlashes(s) == s
  {
    if s != [] {
      assert '\\' !in s[1..];
      UnescapeWithoutBackslash(s[1..]);
      assert s == [s[0]] + s[1..];
    }
  }

  predicate NoLeadingSlash(s: string) {
    s == [] || s[0] != '/'
  }

  /** One character that cannot start an escape passes through. */
  lemma ReplaceStep(ch: char, y: string)
    requires ch != '\\' || NoLeadingSlash(y)
    ensures UnescapeSlashes([ch] + y) == [ch] + UnescapeSlashes(y)
  {
    assert ([ch] + y)[1..] == y;
  }

  /** One escaped character followed by text that does not start with a
      slash: the escape of a slash, and only that, is undone. */
  lemma EscapeCharUnescape(ch: char, z: string)
    requires NoLeadingSlash(z)
    ensures NoLeadingSlash(EscapeChar(ch, true) + z)
    ensures UnescapeSlashes(EscapeChar(ch, true) + z) == EscapeChar(ch, false) + UnescapeSlashes(z)
  {
    if ch == '/' {
      assert (['\\', '/'] + z)[2..] == z;
    } else if ch == '\\' {
      ReplaceStep('\\', z);
      ReplaceStep('\\', ['\\'] + z);
      assert ['\\', '\\'] + z == ['\\'] + (['\\'] + z);
    } else if ch == '"' {
      ReplaceStep('"', z);
      ReplaceStep('\\', ['"'] + z);
      assert ['\\', '"'] + z == ['\\'] + (['"'] + z);
    } else {
      ReplaceStep(ch, z);
    }
  }

  lemma {:induction false} EscapeUnescape(s: string, y: string)
    requires NoLeadingSlash(y)
    ensures NoLeadingSlash(Escape(s, true) + y)
    ensures UnescapeSlashes(Escape(s, true) + y) == Escape(s, false) + UnescapeSlashes(y)
  {
    if s != [] {
      var z := Escape(s[1..], true) + y;
      EscapeUnescape(s[1..], y);
      EscapeCharUnescape(s[0], z);
      EscapeHead(s, true, y);
      EscapeHead(s, false, UnescapeSlashes(y));
    } else {
      assert Escape(s, true) + y == y;
    }
  }

  lemma EscapeHead(s: string, escapeSlash: bool, y: string)
    requires s != []
    ensures Escape(s, escapeSlash) + y == EscapeChar(s[0], escapeSlash) + (Escape(s[1..], escapeSlash) + y)
  {
  }

  lemma {:induction false} ItemsUnescape(entries: seq<string>, y: string)
    requires NoLeadingSlash(y)
    ensures NoLeadingSlash(Items(entries, true) + y)
    ensures UnescapeSlashes(Items(entries, true) + y) == Items(entries, false) + UnescapeSlashes(y)
  {
    if entries == [] {
      assert Items(entries, true) + y == y;
    } else {
      var sep: string := if |entries| > 1 then "," else "";
      var r := Items(entries[1..], true) + y;
      ItemsUnescape(entries[1..], y);
      var v := "\"" + (sep + r);
      ClosingQuoteUnescape(sep, r);
      var x := Escape(entries[0], true) + v;
      EscapeUnescape(entries[0], v);
      ReplaceStep('"', x);
      ItemsHead(entries, true, y);
      ItemsHead(entries, false, UnescapeSlashes(y));
    }
  }

  /** The text after an item's escaped contents: its closing quote and the
      separator. */
  lemma ClosingQuoteUnescape(sep: string, r: string)
    requires sep == "," || sep == ""
    requires NoLeadingSlash(r)
    ensures UnescapeSlashes("\"" + (sep + r)) == "\"" + (sep + UnescapeSlashes(r))
  {
    if sep == "," {
      ReplaceStep(',', r);
    } else {
      assert sep + r == r;
    }
    ReplaceStep('"', sep + r);
  }

  lemma ItemsHead(entries: seq<string>, escapeSlash: bool, y: string)
    requires entries != []
    ensures var sep: string := if |entries| > 1 then "," else "";
      Items(entries, escapeSlash) + y
        == "\"" + (Escape(entries[0], escapeSlash) + ("\"" + (sep + (Items(entries[1..], escapeSlash) + y))))
  {
    var sep: string := if |entries| > 1 then "," else "";
    var q, e, rest := "\"", Escape(entries[0], escapeSlash), Items(entries[1..], escapeSlash);
    assert Items(entries, escapeSlash) == q + e + q + sep + rest;
    SeqAssoc5(q, e, q, sep, rest, y);
  }

  lemma SeqAssoc5(a: string, b: string, c: string, d: string, e: string, y: string)
    ensures a + b + c + d + e + y == a + (b + (c + (d + (e + y))))
  {
  }


}

=== FILE: hex.dfy ===
/** The text form of a SHA-256 digest (the formatting step of computeHash
    in UpdateHashUtils.java): the digest read as an unsigned big-endian
    number and printed with `%064x`, that is lowercase hexadecimal without
    leading zeros, then padded with zeros on the left to 64 characters. */
module Hex {
  newtype byte = x: int | 0 <= x < 256

  /** What MessageDigest("SHA-256").digest() returns: 32 bytes. */
  type Digest = s: seq<byte> | |s| == 32 witness seq(32, i => 0 as byte)

  const HexChars := "0123456789abcdef"

  /** A lowercase hexadecimal digit. */
  predicate IsHexDigit(ch: char) {
    '0' <= ch <= '9' || 'a' <= ch <= 'f'
  }

  predicate IsHexText(s: string) {
    forall i | 0 <= i < |s| :: IsHexDigit(s[i])
  }

  function HexDigit(v: nat): (c: char)
    requires v < 16
    ensures IsHexDigit(c)
  {
    HexChars[v]
  }

  function Pow(b: nat, k: nat): nat {
    if k == 0 then 1 else b * Pow(b, k - 1)
  }

  /** new BigInteger(1, bytes): the bytes as an unsigned big-endian number. */
  function ToNat(bs: seq<byte>): nat {
    if bs == [] then 0 else ToNat(bs[..|bs| - 1]) * 256 + bs[|bs| - 1] as int
  }

  /** BigInteger.toString(16): the shortest lowercase digits, "0" for zero. */
  function HexDigits(n: nat): (s: string)
    ensures |s| >= 1
  {
    if n < 16 then [HexDigit(n)] else HexDigits(n / 16) + [HexDigit(n % 16)]
  }

  function Zeros(k: nat): (s: string)
    ensures |s| == k && forall i | 0 <= i < k :: s[i] == '0'
  {
    seq(k, i => '0')
  }

  /** The `0` flag with a width: pad on the left up to `width`. */
  function PadLeft(s: string, width: nat): (r: string)
    ensures |r| == if |s| >= width then |s| else width
    ensures r[|r| - |s|..] == s
    ensures forall i | 0 <= i < |r| - |s| :: r[i] == '0'
  {
    if |s| >= width then s else Zeros(width - |s|) + s
  }

  /** `%064x` of a non-negative number. */
  function Format064x(n: nat): (r: string)
    ensures |r| >= 64
    ensures n < Pow(16, 64) ==> r == HexWidth(n, 64)
  {
    if n < Pow(16, 64) then
      PadMatchesWidth(n, 64);
      PadLeft(HexDigits(n), 64)
    else PadLeft(HexDigits(n), 64)
  }

  /** What computeHash returns: 64 lowercase hex digits. */
  type DigestString = s: string | |s| == 64 && IsHexText(s) witness Zeros(64)

  /** The digest as computeHash returns it. */
  function DigestText(d: Digest): (r: DigestString)
    ensures r == ByteHex(d)
  {
    DigestTextBytewise(d);
    ByteHexShape(d);
    Format064x(ToNat(d))
  }

  // ---------------------------------------------------------------------
  // The reference: two hex digits per byte.

  /** Each byte as exactly two lowercase hex digits, in order. */
  function ByteHex(bs: seq<byte>): (r: string)
    ensures |r| == 2 * |bs|
  {
    if bs == [] then [] else ByteHex(bs[..|bs| - 1]) + HexPair(bs[|bs| - 1] as int)
  }

  lemma {:induction false} ByteHexShape(bs: seq<byte>)
    ensures IsHexText(ByteHex(bs))
  {
    if bs != [] {
      ByteHexShape(bs[..|bs| - 1]);
    }
  }

  /** The last `w` hex digits of `n`, zero-padded. */
  function HexWidth(n: nat, w: nat): (r: string)
    ensures |r| == w
  {
    if w == 0 then [] else HexWidth(n / 16, w - 1) + [HexDigit(n % 16)]
  }

  lemma {:induction false} HexWidthZero(k: nat)
    ensures HexWidth(0, k) == Zeros(k)
  {
    if k > 0 {
      HexWidthZero(k - 1);
    }
  }

  lemma {:induction false} ToNatBound(bs: seq<byte>)
    ensures ToNat(bs) < Pow(256, |bs|)
  {
    if bs != [] {
      var init := bs[..|bs| - 1];
      ToNatBound(init);
      assert ToNat(bs) == ToNat(init) * 256 + bs[|bs| - 1] as int;
      assert ToNat(init) + 1 <= Pow(256, |init|);
      assert (ToNat(init) + 1) * 256 <= Pow(256, |init|) * 256;
    }
  }

  lemma {:induction false} PowSquare(k: nat)
    ensures Pow(256, k) == Pow(16, 2 * k)
  {
    if k > 0 {
      PowSquare(k - 1);
      assert Pow(16, 2 * k) == 16 * (16 * Pow(16, 2 * (k - 1)));
    }
  }

  /** Padding the shortest digits to a width the number fits in gives the
      fixed-width digits. */
  lemma {:induction false} PadMatchesWidth(n: nat, w: nat)
    requires w >= 1 && n < Pow(16, w)
    ensures PadLeft(HexDigits(n), w) == HexWidth(n, w)
  {
    if n < 16 {
      HexWidthZero(w - 1);
      DivMod16(n, 0, n);
      assert HexWidth(n, w) == Zeros(w - 1) + [HexDigit(n)];
    } else {
      QuotientFits(n, w);
      PadMatchesWidth(n / 16, w - 1);
      PadAppend(HexDigits(n / 16), [HexDigit(n % 16)], w);
    }
  }

  /** A number of at least two digits that fits in `w` digits leaves a
      quotient that fits in `w - 1`. */
  lemma QuotientFits(n: nat, w: nat)
    requires w >= 1 && 16 <= n < Pow(16, w)
    ensures w >= 2 && n / 16 < Pow(16, w - 1)
  {
    var p := Pow(16, w - 1);
    assert Pow(16, w) == 16 * p;
    assert 16 * (n / 16) <= n;
  }

  /** Padding text extended by one character to `w` is padding the text to
      `w - 1` and then extending it. */
  lemma PadAppend(head: string, d: string, w: nat)
    requires |d| == 1 && |head| <= w - 1
    ensures PadLeft(head + d, w) == PadLeft(head, w - 1) + d
  {
    if |head| < w - 1 {
      var z := Zeros(w - 1 - |head|);
      assert PadLeft(head + d, w) == z + (head + d);
      assert z + (head + d) == (z + head) + d;
    }
  }

  lemma DivMod16(n: nat, q: nat, r: nat)
    requires n == q * 16 + r && r < 16
    ensures n / 16 == q && n % 16 == r
  {
  }

  /** Appending a byte to a number appends its two hex digits. */
  lemma HexWidthByte(n: nat, a: nat, b: nat, k: nat)
    requires b < 256 && n == a * 256 + b
    ensures HexWidth(n, k + 2) == HexWidth(a, k) + HexPair(b)
  {
    var m := a * 16 + b / 16;
    assert n == m * 16 + b % 16;
    DivMod16(n, m, b % 16);
    DivMod16(m, a, b / 16);
    assert HexWidth(n, k + 2) == (HexWidth(a, k) + [HexDigit(b / 16)]) + [HexDigit(b % 16)];
  }

  /** Two hex digits per byte are the digits of the big-endian number. */
  lemma {:induction false} HexWidthBytes(bs: seq<byte>)
    ensures HexWidth(ToNat(bs), 2 * |bs|) == ByteHex(bs)
  {
    if bs != [] {
      var init := bs[..|bs| - 1];
      var b := bs[|bs| - 1] as int;
      HexWidthBytes(init);
      HexWidthByte(ToNat(bs), ToNat(init), b, 2 * |init|);
      assert ByteHex(bs) == ByteHex(init) + HexPair(b);
    }
  }

  /** `%064x` of the digest is its bytes in hex, two digits each. */
  lemma DigestTextBytewise(d: Digest)
    ensures Format064x(ToNat(d)) == ByteHex(d)
  {
    ToNatBound(d);
    PowSquare(32);
    PadMatchesWidth(ToNat(d), 64);
    HexWidthBytes(d);
  }

  /** Distinct digests have distinct texts. */
  lemma DigestTextInjective(d1: Digest, d2: Digest)
    requires DigestText(d1) == DigestText(d2)
    ensures d1 == d2
  {
    DigestTextBytewise(d1);
    DigestTextBytewise(d2);
    ByteHexInjective(d1, d2);
  }

  lemma {:induction false} ByteHexInjective(a: seq<byte>, b: seq<byte>)
    requires |a| == |b| && ByteHex(a) == ByteHex(b)
    ensures a == b
  {
    if a != [] {
      var n := |a|;
      LastByteHex(a);
      LastByteHex(b);
      HexPairInjective(a[n - 1] as int, b[n - 1] as int);
      ByteHexInjective(a[..n - 1], b[..n - 1]);
      SplitLast(a);
      SplitLast(b);
    }
  }

  lemma SplitLast<T>(s: seq<T>)
    requires s != []
    ensures s == s[..|s| - 1] + [s[|s| - 1]]
  {
  }

  /** The text of a non-empty byte string splits into the text of all but
      the last byte and that byte's two digits. */
  lemma LastByteHex(a: seq<byte>)
    requires a != []
    ensures ByteHex(a[..|a| - 1]) == ByteHex(a)[..2 * |a| - 2]
    ensures ByteHex(a)[2 * |a| - 2..] == HexPair(a[|a| - 1] as int)
  {
    var init, pair := ByteHex(a[..|a| - 1]), HexPair(a[|a| - 1] as int);
    assert ByteHex(a) == init + pair;
    assert |init| == 2 * |a| - 2;
  }

  /** One byte's two digits. */
  function HexPair(x: nat): (r: string)
    requires x < 256
  {
    [HexDigit(x / 16), HexDigit(x % 16)]
  }

  lemma HexPairInjective(x: nat, y: nat)
    requires x < 256 && y < 256 && HexPair(x) == HexPair(y)
    ensures x == y
  {
    DigitValueInverse(x / 16);
    DigitValueInverse(x % 16);
    DigitValueInverse(y / 16);
    DigitValueInverse(y % 16);
    assert HexPair(x)[0] == HexPair(y)[0] && HexPair(x)[1] == HexPair(y)[1];
  }

  /** The value of a hex digit, the inverse of HexDigit. */
  function DigitValue(c: char): (v: nat)
    ensures v < 16
  {
    if '0' <= c <= '9' then (c - '0') as nat
    else if 'a' <= c <= 'f' then (c - 'a') as nat + 10
    else 0
  }

  lemma DigitValueInverse(v: nat)
    requires v < 16
    ensures DigitValue(HexDigit(v)) == v
  {
  }
}

=== FILE: install.dfy ===
/** The install pipeline of a downloaded package (install and finishInstall
    in localPackage.ts, with getDefaultInstallOptions).

    The callbacks of localPackage.ts run one after another, so the pipeline is a
    pure function from the data directory and the answers of the outside
    world (`Env`) to the final data directory and the trace of what the
    caller and the native side observe (`Event`). Every error event also
    stands for the deployment-failed status report that accompanies it. */
module Install {
  import opened Wrappers
  import opened FileTree
  import opened PackageInfo
  import opened Verification
  import opened Deployment

  /** InstallOptions as the caller passes them; unset fields are `None`. */
  datatype InstallOptions = InstallOptions(
    installMode: Option<InstallMode>,
    minimumBackgroundDuration: Option<int>,
    mandatoryInstallMode: Option<InstallMode>)
  {
    predicate Complete() {
      installMode.Some? && minimumBackgroundDuration.Some? && mandatoryInstallMode.Some?
    }
  }

  const DefaultInstallOptions := InstallOptions(Some(OnNextRestart), Some(0), Some(Immediate))

  /** What the caller and the native side see, in order. */
  datatype Event =
    | Succeeded(mode: InstallMode)
    | Errored(message: Option<string>)
    | PreInstallCalled(path: Path)
    | InstallCalled(path: Path, mode: InstallMode, minimumBackgroundDuration: int)

  /** The outside world for one install: the stale unzip directory's
      removal error, what the archive extracts to and the unzip error, the
      native hash and signature calls, file-system faults, the application
      bundle, the native app facts, and the outcome of the native
      preInstall and install calls. */
  datatype Env = Env(
    staleCleanup: Option<string>,
    archive: DataTree,
    unzipError: Option<string>,
    native: Native,
    deployFaults: DeployFaults,
    slotFaults: SlotFaults,
    appDir: DataTree,
    app: AppInfo,
    preInstall: Option<string>,
    installSucceeds: bool)

  datatype Run = Run(tree: DataTree, trace: seq<Event>)

  const UnzipFailure := "Could not unzip package. "
  const PreInstallFailure := "An error has occured while installing the package. "

  /** Nothing at `p` differs between the two trees. */
  predicate Same(t: DataTree, t1: DataTree, p: Path) {
    (p in t1 <==> p in t) && (p in t ==> t1[p] == t[p])
  }

  /** Going from `t` to `t1` changed at most the two record slots and the
      folder that holds them. */
  ghost predicate SlotsOnlyChanged(t: DataTree, t1: DataTree) {
    forall p | p != RootDir && p != CurrentSlot && p != OldSlot :: Same(t, t1, p)
  }

  lemma SlotsOnlyChangedTrans(t: DataTree, t1: DataTree, t2: DataTree)
    requires SlotsOnlyChanged(t, t1) && SlotsOnlyChanged(t1, t2)
    ensures SlotsOnlyChanged(t, t2)
  {
    forall p | p != RootDir && p != CurrentSlot && p != OldSlot
      ensures Same(t, t2, p)
    {
      assert Same(t, t1, p) && Same(t1, t2, p);
    }
  }

  /** A versioned package directory is kept whole by changes to the record
      slots. */
  lemma SlotsOnlyChangedUnder(t: DataTree, t1: DataTree, dir: Path)
    requires SlotsOnlyChanged(t, t1) && Below(VersionsDir, dir)
    ensures Under(t1, dir) == Under(t, dir)
  {
    forall q
      ensures q in Under(t1, dir) <==> q in Under(t, dir)
      ensures q in Under(t, dir) ==> Under(t1, dir)[q] == Under(t, dir)[q]
    {
      UnderIn(t1, dir, q);
      UnderIn(t, dir, q);
      assert |dir + q| > |OldSlot| && |OldSlot| == |CurrentSlot| > |RootDir|;
      assert Same(t, t1, dir + q);
    }
  }

  /** `a` happens before `b`. */
  ghost predicate Precedes(trace: seq<Event>, a: Event, b: Event) {
    exists i, j :: 0 <= i < j < |trace| && trace[i] == a && trace[j] == b
  }

  // ---------------------------------------------------------------------
  // Install options.

  /** getDefaultInstallOptions over its lazily set static: the returned
      options and the new value of the static. Starting unset, the static
      only ever holds the defaults. */
  function GetDefaultInstallOptions(cache: Option<InstallOptions>): (r: (InstallOptions, Option<InstallOptions>))
    ensures r.1 == Some(r.0)
    ensures cache.None? || cache == Some(DefaultInstallOptions) ==> r.0 == DefaultInstallOptions
    ensures cache.Some? ==> r.1 == cache
  {
    match cache
    case None => (DefaultInstallOptions, Some(DefaultInstallOptions))
    case Some(o) => (o, cache)
  }

  /** copyUnassignedMembers: every field the caller left unset is taken
      from `defaults`. */
  function FillUnset(given: InstallOptions, defaults: InstallOptions): (r: InstallOptions)
    ensures given.installMode.Some? ==> r.installMode == given.installMode
    ensures given.minimumBackgroundDuration.Some? ==> r.minimumBackgroundDuration == given.minimumBackgroundDuration
    ensures given.mandatoryInstallMode.Some? ==> r.mandatoryInstallMode == given.mandatoryInstallMode
    ensures given.installMode.None? ==> r.installMode == defaults.installMode
    ensures given.minimumBackgroundDuration.None? ==> r.minimumBackgroundDuration == defaults.minimumBackgroundDuration
    ensures given.mandatoryInstallMode.None? ==> r.mandatoryInstallMode == defaults.mandatoryInstallMode
    ensures defaults.Complete() ==> r.Complete()
  {
    InstallOptions(
      if given.installMode.Some? then given.installMode else defaults.installMode,
      if given.minimumBackgroundDuration.Some? then given.minimumBackgroundDuration else defaults.minimumBackgroundDuration,
      if given.mandatoryInstallMode.Some? then given.mandatoryInstallMode else defaults.mandatoryInstallMode)
  }

  /** The options install works with: the defaults when none are given,
      otherwise the given ones completed from the defaults. */
  function ResolveInstallOptions(given: Option<InstallOptions>): (r: InstallOptions)
    ensures r.Complete()
    ensures given.None? ==> r == DefaultInstallOptions
    ensures given.Some? && given.value.Complete() ==> r == given.value
    ensures given.Some? ==> r == FillUnset(given.value, DefaultInstallOptions)
  {
    match given
    case None => DefaultInstallOptions
    case Some(o) => FillUnset(o, DefaultInstallOptions)
  }

  /** Resolving already resolved options changes nothing. */
  lemma ResolveIdempotent(given: Option<InstallOptions>)
    ensures ResolveInstallOptions(Some(ResolveInstallOptions(given))) == ResolveInstallOptions(given)
  {
  }

  const NoInstallOptions := InstallOptions(None, None, None)

  /** Filling is taking, field by field, the first set value: options with
      nothing set are neutral on both sides, and filling from a fill is
      the same as filling from the defaults completed in turn. */
  lemma FillUnsetAlgebra(a: InstallOptions, b: InstallOptions, c: InstallOptions)
    ensures FillUnset(a, NoInstallOptions) == a && FillUnset(NoInstallOptions, a) == a
    ensures FillUnset(FillUnset(a, b), c) == FillUnset(a, FillUnset(b, c))
    ensures a.Complete() ==> FillUnset(a, b) == a
  {
  }

  /** The mode the hand-off uses: the mandatory mode exactly when the
      package is marked mandatory. */
  function ChosenMode(isMandatory: Option<bool>, opts: InstallOptions): (m: InstallMode)
    requires opts.Complete()
    ensures isMandatory == Some(true) ==> m == opts.mandatoryInstallMode.value
    ensures isMandatory != Some(true) ==> m == opts.installMode.value
  {
    if isMandatory == Some(true) then opts.mandatoryInstallMode.value else opts.installMode.value
  }

  // ---------------------------------------------------------------------
  // The stages.

  /** The removal of a stale unzip directory left by an earlier attempt. */
  function CleanStale(t: DataTree, staleCleanup: Option<string>): (r: (DataTree, Result<()>))
    ensures Confined(t, r.0, DownloadUnzipDir)
    ensures r.1.Err? <==> DirExists(t, DownloadUnzipDir) && staleCleanup.Some?
    ensures r.1.Err? ==> r.0 == t && r.1.message == staleCleanup.value
    ensures r.1.Ok? && DirExists(t, DownloadUnzipDir) ==> Under(r.0, DownloadUnzipDir) == map[]
    ensures !DirExists(t, DownloadUnzipDir) ==> r.0 == t
  {
    RemoveRecursivelyEmpties(t, DownloadUnzipDir);
    if !DirExists(t, DownloadUnzipDir) then (t, Ok(()))
    else if staleCleanup.Some? then (t, Err(staleCleanup.value))
    else (RemoveRecursively(t, DownloadUnzipDir), Ok(()))
  }

  /** The (re)creation of the unzip directory and the extraction of the
      archive into it. An unzip error is reported but does not stop the
      pipeline (`Ok` with the error event). */
  function Unzip(t: DataTree, env: Env): (r: (DataTree, Result<seq<Event>>))
    ensures Confined(t, r.0, DownloadUnzipDir)
    ensures r.1.Err? <==> GetDirectory(t, DownloadUnzipDir, true).Err?
    ensures r.1.Err? ==> r.0 == t && r.1.message == DirectoryError
    ensures r.1.Ok? ==> DirExists(r.0, DownloadUnzipDir)
    ensures r.1.Ok? ==> Under(r.0, DownloadUnzipDir) == Overlay(Under(env.archive, []), Under(t, DownloadUnzipDir))
    ensures r.1.Ok? && env.unzipError.None? ==> r.1.value == []
    ensures r.1.Ok? && env.unzipError.Some? ==> r.1.value == [Errored(Some(UnzipFailure + env.unzipError.value))]
  {
    match GetDirectory(t, DownloadUnzipDir, true)
    case Err(e) => (t, Err(e))
    case Ok(t1) =>
      GetDirectoryConfined(t, DownloadUnzipDir, DownloadUnzipDir);
      var t2 := CopyEntries(t1, env.archive, [], DownloadUnzipDir);
      CopyEntriesConfined(t1, env.archive, [], DownloadUnzipDir, DownloadUnzipDir);
      ConfinedTrans(t, t1, t2, DownloadUnzipDir);
      CopyEntriesUnder(t1, env.archive, [], DownloadUnzipDir);
      UnderGetDirectory(t, DownloadUnzipDir, DownloadUnzipDir);
      PlaceIn(Under(env.archive, []), DownloadUnzipDir, DownloadUnzipDir);
      UnderIn(env.archive, [], []);
      var events := if env.unzipError.Some? then [Errored(Some(UnzipFailure + env.unzipError.value))] else [];
      (t2, Ok(events))
  }

  /** The first stages of install: clean up a stale unzip directory, then
      unzip. */
  function CleanAndUnzip(t: DataTree, env: Env): (r: (DataTree, Result<seq<Event>>))
    ensures r.1.Err? ==> (DirExists(t, DownloadUnzipDir) && env.staleCleanup == Some(r.1.message)) || r.1.message == DirectoryError
    ensures DirExists(t, DownloadUnzipDir) && env.staleCleanup.Some? ==> r.1.Err?
    ensures r.1.Ok? && env.unzipError.None? ==> r.1.value == []
    ensures r.1.Ok? && env.unzipError.Some? ==> r.1.value == [Errored(Some(UnzipFailure + env.unzipError.value))]
  {
    var (t1, cleaned) := CleanStale(t, env.staleCleanup);
    if cleaned.Err? then (t1, Err(cleaned.message))
    else Unzip(t1, env)
  }

  /** Cleaning and unzipping touch nothing outside the unzip directory but
      the folders leading to it. */
  lemma CleanAndUnzipConfined(t: DataTree, env: Env)
    ensures Confined(t, CleanAndUnzip(t, env).0, DownloadUnzipDir)
  {
    var (t1, cleaned) := CleanStale(t, env.staleCleanup);
    if cleaned.Ok? {
      ConfinedTrans(t, t1, Unzip(t1, env).0, DownloadUnzipDir);
    }
  }

  /** When the unzip directory can be had, it holds exactly what the
      archive extracts to: nothing of an earlier attempt is left over. */
  lemma CleanAndUnzipFresh(t: DataTree, env: Env)
    requires CleanAndUnzip(t, env).1.Ok?
    requires DirExists(t, DownloadUnzipDir) || Under(t, DownloadUnzipDir) == map[]
    ensures DirExists(CleanAndUnzip(t, env).0, DownloadUnzipDir)
    ensures Under(CleanAndUnzip(t, env).0, DownloadUnzipDir) == Under(env.archive, [])
  {
    var (t1, cleaned) := CleanStale(t, env.staleCleanup);
    assert CleanAndUnzip(t, env) == Unzip(t1, env);
    CleanStaleEmpties(t, env.staleCleanup);
    UnzipIntoEmpty(t1, env);
  }

  lemma CleanStaleEmpties(t: DataTree, staleCleanup: Option<string>)
    requires CleanStale(t, staleCleanup).1.Ok?
    requires DirExists(t, DownloadUnzipDir) || Under(t, DownloadUnzipDir) == map[]
    ensures Under(CleanStale(t, staleCleanup).0, DownloadUnzipDir) == map[]
  {
    if !DirExists(t, DownloadUnzipDir) {
      assert CleanStale(t, staleCleanup).0 == t;
    }
  }

  lemma UnzipIntoEmpty(t: DataTree, env: Env)
    requires Unzip(t, env).1.Ok? && Under(t, DownloadUnzipDir) == map[]
    ensures DirExists(Unzip(t, env).0, DownloadUnzipDir)
    ensures Under(Unzip(t, env).0, DownloadUnzipDir) == Under(env.archive, [])
  {
    var empty: DataTree := map[];
    var extracted := Under(env.archive, []);
    assert Under(Unzip(t, env).0, DownloadUnzipDir) == Overlay(extracted, empty);
    assert Overlay(extracted, empty) == extracted;
  }

  /** The last step of finishInstall: preInstall, then the install call.
      In IMMEDIATE mode success is reported before the install call, since
      the reload may tear the JavaScript context down; in the other modes
      only from the install call's own success callback. */
  function HandOff(isMandatory: Option<bool>, deployDir: Path, opts: InstallOptions, preInstall: Option<string>, installSucceeds: bool): (trace: seq<Event>)
    requires opts.Complete()
    ensures |trace| >= 2 && trace[0] == PreInstallCalled(deployDir)
    ensures |trace| == if preInstall.Some? then 2 else 3
    ensures preInstall.Some? ==> trace == [PreInstallCalled(deployDir), Errored(Some(PreInstallFailure + preInstall.value))]
    ensures forall e | e in trace && e.InstallCalled? ::
      e == InstallCalled(deployDir, ChosenMode(isMandatory, opts), opts.minimumBackgroundDuration.value)
    ensures forall e | e in trace && e.Succeeded? :: e.mode == ChosenMode(isMandatory, opts)
    ensures preInstall.None? ==> InstallCalled(deployDir, ChosenMode(isMandatory, opts), opts.minimumBackgroundDuration.value) in trace
    ensures preInstall.None? && ChosenMode(isMandatory, opts) == Immediate ==>
      Precedes(trace, Succeeded(Immediate), InstallCalled(deployDir, Immediate, opts.minimumBackgroundDuration.value))
    ensures ChosenMode(isMandatory, opts) != Immediate ==>
      (Succeeded(ChosenMode(isMandatory, opts)) in trace <==> preInstall.None? && installSucceeds)
    ensures ChosenMode(isMandatory, opts) != Immediate ==>
      forall i | 0 <= i < |trace| && trace[i].Succeeded? :: exists j :: 0 <= j < i && trace[j].InstallCalled?
    ensures ChosenMode(isMandatory, opts) != Immediate && preInstall.None? && !installSucceeds ==>
      trace[|trace| - 1] == Errored(None)
    ensures preInstall.None? && (ChosenMode(isMandatory, opts) == Immediate || installSucceeds) ==>
      forall e | e in trace :: !e.Errored?
    ensures preInstall.None? && (ChosenMode(isMandatory, opts) == Immediate || installSucceeds) ==>
      Succeeded(ChosenMode(isMandatory, opts)) in trace
  {
    var mode := ChosenMode(isMandatory, opts);
    var call := InstallCalled(deployDir, mode, opts.minimumBackgroundDuration.value);
    if preInstall.Some? then [PreInstallCalled(deployDir), Errored(Some(PreInstallFailure + preInstall.value))]
    else if mode == Immediate then
      var trace := [PreInstallCalled(deployDir), Succeeded(mode), call];
      assert trace[1] == Succeeded(Immediate) && trace[2] == call;
      trace
    else
      var trace := [PreInstallCalled(deployDir), call] + (if installSucceeds then [Succeeded(mode)] else [Errored(None)]);
      assert installSucceeds ==> trace[2] == Succeeded(mode) && trace[1] == call;
      trace
  }

  /** The record keeping of finishInstall: back up the current record
      unless an update is pending, whatever the backup's outcome, then
      write the new record. */
  function RecordPackage(t: DataTree, pkg: Package, env: Env): (r: (DataTree, Result<()>))
    ensures r.1.Ok? ==> HasFile(r.0, CurrentSlot) && r.0[CurrentSlot].content == MetadataJson(NewMetadata(pkg, env.app))
    ensures r.1.Err? ==> Same(t, r.0, CurrentSlot)
    ensures !Same(t, r.0, OldSlot) ==>
      !env.app.pendingUpdate && HasFile(t, CurrentSlot) && (OldSlot in r.0 ==> r.0[OldSlot] == t[CurrentSlot])
    ensures r.1 == WriteCurrentPackageInformation(t, NewMetadata(pkg, env.app), env.slotFaults).1
    ensures SlotsOnlyChanged(t, r.0)
  {
    assert CurrentSlot[1] != OldSlot[1] && CurrentSlot != RootDir && OldSlot != RootDir;
    var t1 := if env.app.pendingUpdate then t else BackupPackageInformationFile(t, env.slotFaults).0;
    assert Same(t, t1, RootDir) && Same(t, t1, CurrentSlot);
    BackupKeepsRest(t, env.slotFaults);
    WriteKeepsRest(t1, NewMetadata(pkg, env.app), env.slotFaults);
    SlotsOnlyChangedTrans(t, t1, WriteCurrentPackageInformation(t1, NewMetadata(pkg, env.app), env.slotFaults).0);
    WriteCurrentPackageInformation(t1, NewMetadata(pkg, env.app), env.slotFaults)
  }

  lemma BackupKeepsRest(t: DataTree, faults: SlotFaults)
    ensures SlotsOnlyChanged(t, BackupPackageInformationFile(t, faults).0)
  {
  }

  lemma WriteKeepsRest(t: DataTree, m: Metadata, faults: SlotFaults)
    ensures SlotsOnlyChanged(t, WriteCurrentPackageInformation(t, m, faults).0)
  {
  }

  /** finishInstall: read the current or default package (only its
      failure matters), record the new package, then hand off. */
  function FinishInstall(t: DataTree, pkg: Package, deployDir: Path, opts: InstallOptions, env: Env): (r: Run)
    requires opts.Complete()
    ensures GetPackageInfoOrDefault(t, PackageInfoFile, env.app).Err? ==>
      r == Run(t, [Errored(Some(env.app.appVersion.message))])
    ensures (exists m :: Succeeded(m) in r.trace) ==>
      HasFile(r.tree, CurrentSlot) && r.tree[CurrentSlot].content == MetadataJson(NewMetadata(pkg, env.app))
    ensures !Same(t, r.tree, CurrentSlot) ==> PreInstallCalled(deployDir) in r.trace
    ensures !Same(t, r.tree, OldSlot) ==>
      !env.app.pendingUpdate && HasFile(t, CurrentSlot) && (OldSlot in r.tree ==> r.tree[OldSlot] == t[CurrentSlot])
    ensures GetPackageInfoOrDefault(t, PackageInfoFile, env.app).Ok? && RecordPackage(t, pkg, env).1.Err? ==>
      r.trace == [Errored(Some(RecordPackage(t, pkg, env).1.message))]
    ensures GetPackageInfoOrDefault(t, PackageInfoFile, env.app).Ok? && RecordPackage(t, pkg, env).1.Ok? ==>
      r.trace == HandOff(pkg.isMandatory, deployDir, opts, env.preInstall, env.installSucceeds)
    ensures SlotsOnlyChanged(t, r.tree)
  {
    match GetPackageInfoOrDefault(t, PackageInfoFile, env.app)
    case Err(e) => Run(t, [Errored(Some(e))])
    case Ok(_) =>
      var (t1, written) := RecordPackage(t, pkg, env);
      if written.Err? then Run(t1, [Errored(Some(written.message))])
      else Run(t1, HandOff(pkg.isMandatory, deployDir, opts, env.preInstall, env.installSucceeds))
  }

  /** newPackageLocation: the hash as JavaScript concatenates it. */
  function HashText(packageHash: Option<string>): string {
    packageHash.GetOr("undefined")
  }

  /** The deployment stage of install: deploy into `target`, then finish
      with the package's `localPath` set to it. An exception escaping a
      deployment callback ends the run without any further event. */
  function Deploy(t: DataTree, pkg: Package, target: Path, opts: InstallOptions, env: Env): (r: Run)
    requires Below(VersionsDir, target) && opts.Complete()
    ensures HandleDeployment(t, target, env.appDir, env.app, env.deployFaults).status.Completed? ==>
      r == FinishInstall(HandleDeployment(t, target, env.appDir, env.app, env.deployFaults).tree,
                         pkg.(localPath := Some(target)), target, opts, env)
    ensures !HandleDeployment(t, target, env.appDir, env.app, env.deployFaults).status.Completed? ==>
      r.tree == HandleDeployment(t, target, env.appDir, env.app, env.deployFaults).tree && forall e | e in r.trace :: e.Errored?
    ensures var d := HandleDeployment(t, target, env.appDir, env.app, env.deployFaults);
      d.status.Failed? ==> r == Run(d.tree, [Errored(Some(d.status.message))])
    ensures var d := HandleDeployment(t, target, env.appDir, env.app, env.deployFaults);
      d.status.Stalled? ==> r == Run(d.tree, [])
  {
    var d := HandleDeployment(t, target, env.appDir, env.app, env.deployFaults);
    match d.status
    case Stalled => Run(d.tree, [])
    case Failed(m) => Run(d.tree, [Errored(Some(m))])
    case Completed => FinishInstall(d.tree, pkg.(localPath := Some(target)), target, opts, env)
  }

  /** Deploying never touches the record slots; only finishing does. */
  lemma DeployGuardsSlots(t: DataTree, pkg: Package, target: Path, opts: InstallOptions, env: Env)
    requires Below(VersionsDir, target) && opts.Complete()
    ensures var r := Deploy(t, pkg, target, opts, env);
      !Same(t, r.tree, CurrentSlot) ==> PreInstallCalled(target) in r.trace
    ensures var r := Deploy(t, pkg, target, opts, env);
      !Same(t, r.tree, OldSlot) ==>
        !env.app.pendingUpdate && HasFile(t, CurrentSlot) && (OldSlot in r.tree ==> r.tree[OldSlot] == t[CurrentSlot])
  {
    var d := HandleDeployment(t, target, env.appDir, env.app, env.deployFaults);
    SlotsKeptByDeployment(t, target, env, d.tree);
  }

  /** The directory handed to the native side holds what the deployment
      left there: finishing touches only the record slots. */
  lemma DeployHandsOverTarget(t: DataTree, pkg: Package, target: Path, opts: InstallOptions, env: Env)
    requires Below(VersionsDir, target) && opts.Complete()
    ensures Under(Deploy(t, pkg, target, opts, env).tree, target)
         == Under(HandleDeployment(t, target, env.appDir, env.app, env.deployFaults).tree, target)
  {
    var d := HandleDeployment(t, target, env.appDir, env.app, env.deployFaults);
    var r := Deploy(t, pkg, target, opts, env);
    if d.status.Completed? {
      var f := FinishInstall(d.tree, pkg.(localPath := Some(target)), target, opts, env);
      assert r == f;
      SlotsOnlyChangedUnder(d.tree, f.tree, target);
    }
  }

  /** The forward direction of install: when the unzip stage, the
      verification, the deployment, the default read and the record write
      all succeed, the run goes on to the hand-off, so preInstall and the
      install call are reached, and success is reported as the mode allows. */
  lemma InstallReachesHandOff(t: DataTree, pkg: Package, options: Option<InstallOptions>, env: Env)
    requires CleanAndUnzip(t, env).1.Ok?
    requires VerifyPackage(CleanAndUnzip(t, env).0, pkg.packageHash, env.native).Ok?
    requires var target := PackageLocation(HashText(pkg.packageHash));
      var d := HandleDeployment(CleanAndUnzip(t, env).0, target, env.appDir, env.app, env.deployFaults);
      d.status.Completed? && GetPackageInfoOrDefault(d.tree, PackageInfoFile, env.app).Ok?
      && RecordPackage(d.tree, pkg.(localPath := Some(target)), env).1.Ok?
    ensures var target := PackageLocation(HashText(pkg.packageHash));
      var opts := ResolveInstallOptions(options);
      Install(t, pkg, options, env).trace ==
        CleanAndUnzip(t, env).1.value + HandOff(pkg.isMandatory, target, opts, env.preInstall, env.installSucceeds)
    ensures var target := PackageLocation(HashText(pkg.packageHash));
      var opts := ResolveInstallOptions(options);
      var mode := ChosenMode(pkg.isMandatory, opts);
      var trace := Install(t, pkg, options, env).trace;
      && PreInstallCalled(target) in trace
      && (env.preInstall.None? ==> InstallCalled(target, mode, opts.minimumBackgroundDuration.value) in trace)
      && (env.preInstall.None? && (mode == Immediate || env.installSucceeds) ==> Succeeded(mode) in trace)
  {
    var (t1, unzipped) := CleanAndUnzip(t, env);
    var target := PackageLocation(HashText(pkg.packageHash));
    var opts := ResolveInstallOptions(options);
    var d := HandleDeployment(t1, target, env.appDir, env.app, env.deployFaults);
    var f := FinishInstall(d.tree, pkg.(localPath := Some(target)), target, opts, env);
    var handOff := HandOff(pkg.isMandatory, target, opts, env.preInstall, env.installSucceeds);
    assert f.trace == handOff;
    assert VerifyAndDeploy(t1, pkg, options, env) == f;
    assert Install(t, pkg, options, env).trace == unzipped.value + handOff;
    InConcat(unzipped.value, handOff);
  }

  lemma InConcat<T>(a: seq<T>, b: seq<T>)
    ensures forall x | x in b :: x in a + b
  {
    forall x | x in b ensures x in a + b {
      var i :| 0 <= i < |b| && b[i] == x;
      assert (a + b)[|a| + i] == x;
    }
  }

  /** Whenever preInstall is handed the versioned directory, that directory
      holds exactly what handleDeployment left in it. */
  lemma InstallHandsOverDeployment(t: DataTree, pkg: Package, options: Option<InstallOptions>, env: Env)
    requires PreInstallCalled(PackageLocation(HashText(pkg.packageHash))) in Install(t, pkg, options, env).trace
    ensures var target := PackageLocation(HashText(pkg.packageHash));
      Under(Install(t, pkg, options, env).tree, target)
        == Under(HandleDeployment(CleanAndUnzip(t, env).0, target, env.appDir, env.app, env.deployFaults).tree, target)
  {
    HandOffNeedsVerifiedUnzip(t, pkg, options, env);
    var (t1, unzipped) := CleanAndUnzip(t, env);
    if unzipped.Ok? && VerifyPackage(t1, pkg.packageHash, env.native).Ok? {
      var target := PackageLocation(HashText(pkg.packageHash));
      var rest := Deploy(t1, pkg, target, ResolveInstallOptions(options), env);
      assert Install(t, pkg, options, env) == Run(rest.tree, unzipped.value + rest.trace);
      DeployHandsOverTarget(t1, pkg, target, ResolveInstallOptions(options), env);
    }
  }

  /** preInstall is reached only past a successful unzip stage and a
      successful verification. */
  lemma HandOffNeedsVerifiedUnzip(t: DataTree, pkg: Package, options: Option<InstallOptions>, env: Env)
    ensures PreInstallCalled(PackageLocation(HashText(pkg.packageHash))) in Install(t, pkg, options, env).trace ==>
      CleanAndUnzip(t, env).1.Ok? && VerifyPackage(CleanAndUnzip(t, env).0, pkg.packageHash, env.native).Ok?
  {
    var (t1, unzipped) := CleanAndUnzip(t, env);
    if unzipped.Err? {
      assert Install(t, pkg, options, env).trace == [Errored(Some(unzipped.message))];
    } else if VerifyPackage(t1, pkg.packageHash, env.native).Err? {
      VerifyFailureStops(t, pkg, options, env);
    }
  }

  /** The stages after unzipping: verify, then deploy into the versioned
      directory named by the package hash. */
  function VerifyAndDeploy(t: DataTree, pkg: Package, options: Option<InstallOptions>, env: Env): (r: Run)
    ensures VerifyPackage(t, pkg.packageHash, env.native).Err? ==>
      r == Run(t, [Errored(Some(VerifyPackage(t, pkg.packageHash, env.native).message))])
    ensures VerifyPackage(t, pkg.packageHash, env.native).Ok? ==>
      r == Deploy(t, pkg, PackageLocation(HashText(pkg.packageHash)), ResolveInstallOptions(options), env)
  {
    match VerifyPackage(t, pkg.packageHash, env.native)
    case Err(e) => Run(t, [Errored(Some(e))])
    case Ok(_) => Deploy(t, pkg, PackageLocation(HashText(pkg.packageHash)), ResolveInstallOptions(options), env)
  }

  lemma SlotsKeptByDeployment(t: DataTree, target: Path, env: Env, t1: DataTree)
    requires Below(VersionsDir, target)
    requires t1 == HandleDeployment(t, target, env.appDir, env.app, env.deployFaults).tree
    ensures Same(t, t1, CurrentSlot) && Same(t, t1, OldSlot)
  {
    VersionsApart(target);
    ConfinedApart(t, t1, target, CurrentSlot);
    ConfinedApart(t, t1, target, OldSlot);
  }

  /** install: clean up and unzip, then verify and deploy. */
  function Install(t: DataTree, pkg: Package, options: Option<InstallOptions>, env: Env): (r: Run)
    ensures DirExists(t, DownloadUnzipDir) && env.staleCleanup.Some? ==> r == Run(t, [Errored(env.staleCleanup)])
    ensures !DirExists(t, DownloadUnzipDir) && Blocked(t, DownloadUnzipDir) ==> r == Run(t, [Errored(Some(DirectoryError))])
    ensures CleanAndUnzip(t, env).1.Ok? ==>
      var rest := VerifyAndDeploy(CleanAndUnzip(t, env).0, pkg, options, env);
      r == Run(rest.tree, CleanAndUnzip(t, env).1.value + rest.trace)
  {
    var (t1, unzipped) := CleanAndUnzip(t, env);
    if unzipped.Err? then Run(t1, [Errored(Some(unzipped.message))])
    else
      var rest := VerifyAndDeploy(t1, pkg, options, env);
      Run(rest.tree, unzipped.value + rest.trace)
  }

  // ---------------------------------------------------------------------
  // Properties of the pipeline.

  lemma SlotsApart()
    ensures Apart(DownloadUnzipDir, CurrentSlot) && Apart(DownloadUnzipDir, OldSlot)
  {
    assert DownloadUnzipDir[1] != CurrentSlot[1] && DownloadUnzipDir[1] != OldSlot[1];
  }

  /** Cleaning and unzipping leave both record slots alone. */
  lemma UnzipKeepsSlots(t: DataTree, env: Env)
    ensures Same(t, CleanAndUnzip(t, env).0, CurrentSlot) && Same(t, CleanAndUnzip(t, env).0, OldSlot)
  {
    SlotsApart();
    CleanAndUnzipConfined(t, env);
    ConfinedApart(t, CleanAndUnzip(t, env).0, DownloadUnzipDir, CurrentSlot);
    ConfinedApart(t, CleanAndUnzip(t, env).0, DownloadUnzipDir, OldSlot);
  }

  /** The native install call made by finishInstall gets the deployment
      directory, the chosen mode and the minimum background duration. */
  lemma FinishInstallCallArguments(t: DataTree, pkg: Package, deployDir: Path, opts: InstallOptions, env: Env, e: Event)
    requires opts.Complete()
    requires e in FinishInstall(t, pkg, deployDir, opts, env).trace && e.InstallCalled?
    ensures e == InstallCalled(deployDir, ChosenMode(pkg.isMandatory, opts), opts.minimumBackgroundDuration.value)
  {
  }

  /** No partial state reaches the record slots: the current record changes
      only once the new record is written, after which the hand-off
      starts; the old record changes only by the backup, which never runs
      while an update is pending and only ever copies the previous current
      record there (or, on a failed copy, leaves the slot empty). */
  lemma InstallGuardsSlots(t: DataTree, pkg: Package, options: Option<InstallOptions>, env: Env)
    ensures var r := Install(t, pkg, options, env);
      !Same(t, r.tree, CurrentSlot) ==> PreInstallCalled(PackageLocation(HashText(pkg.packageHash))) in r.trace
    ensures var r := Install(t, pkg, options, env);
      !Same(t, r.tree, OldSlot) ==>
        !env.app.pendingUpdate && HasFile(t, CurrentSlot) && (OldSlot in r.tree ==> r.tree[OldSlot] == t[CurrentSlot])
  {
    UnzipKeepsSlots(t, env);
    var (t1, unzipped) := CleanAndUnzip(t, env);
    if unzipped.Ok? && VerifyPackage(t1, pkg.packageHash, env.native).Ok? {
      var target := PackageLocation(HashText(pkg.packageHash));
      var rest := Deploy(t1, pkg, target, ResolveInstallOptions(options), env);
      DeployGuardsSlots(t1, pkg, target, ResolveInstallOptions(options), env);
      assert Install(t, pkg, options, env) == Run(rest.tree, unzipped.value + rest.trace);
      assert PreInstallCalled(target) in rest.trace ==> PreInstallCalled(target) in unzipped.value + rest.trace;
    }
  }

  /** Success is reported only after the new record, pointing at the
      versioned directory, is the current one. */
  lemma InstallSucceedsAfterWrite(t: DataTree, pkg: Package, options: Option<InstallOptions>, env: Env, m: InstallMode)
    requires Succeeded(m) in Install(t, pkg, options, env).trace
    ensures var r := Install(t, pkg, options, env);
      var target := PackageLocation(HashText(pkg.packageHash));
      HasFile(r.tree, CurrentSlot)
      && r.tree[CurrentSlot].content == MetadataJson(NewMetadata(pkg.(localPath := Some(target)), env.app))
  {
    var (t1, unzipped) := CleanAndUnzip(t, env);
    var rest := VerifyAndDeploy(t1, pkg, options, env);
    assert Succeeded(m) in rest.trace;
  }

  /** The native install call, whenever it is made, gets the versioned
      directory, the mode chosen by the mandatory flag from the resolved
      options, and the resolved minimum background duration. */
  lemma InstallCallArguments(t: DataTree, pkg: Package, options: Option<InstallOptions>, env: Env, e: Event)
    requires e in Install(t, pkg, options, env).trace && e.InstallCalled?
    ensures var opts := ResolveInstallOptions(options);
      e == InstallCalled(PackageLocation(HashText(pkg.packageHash)), ChosenMode(pkg.isMandatory, opts), opts.minimumBackgroundDuration.value)
  {
    var (t1, unzipped) := CleanAndUnzip(t, env);
    var rest := VerifyAndDeploy(t1, pkg, options, env);
    assert e in rest.trace;
    var target := PackageLocation(HashText(pkg.packageHash));
    var d := HandleDeployment(t1, target, env.appDir, env.app, env.deployFaults);
    FinishInstallCallArguments(d.tree, pkg.(localPath := Some(target)), target, ResolveInstallOptions(options), env, e);
  }

  /** A failed verification ends the install there: only the unzip
      directory was touched, the last event is the verification error, and
      the hand-off never starts. */
  lemma VerifyFailureStops(t: DataTree, pkg: Package, options: Option<InstallOptions>, env: Env)
    requires CleanAndUnzip(t, env).1.Ok?
    requires VerifyPackage(CleanAndUnzip(t, env).0, pkg.packageHash, env.native).Err?
    ensures var r := Install(t, pkg, options, env);
      && Confined(t, r.tree, DownloadUnzipDir)
      && Same(t, r.tree, CurrentSlot) && Same(t, r.tree, OldSlot)
      && Under(r.tree, VersionsDir) == Under(t, VersionsDir)
      && r.trace[|r.trace| - 1] == Errored(Some(VerifyPackage(CleanAndUnzip(t, env).0, pkg.packageHash, env.native).message))
      && forall e | e in r.trace :: e.Errored?
  {
    VerifyFailureRun(t, pkg, options, env);
    UnzipEventsThenError(t, env, VerifyPackage(CleanAndUnzip(t, env).0, pkg.packageHash, env.native).message);
    CleanAndUnzipConfined(t, env);
    UnzipKeepsSlots(t, env);
    UnzipKeepsVersions(t, env);
  }

  /** The unzip stage reports nothing but errors, so a run that stops after
      it with an error reports errors only. */
  lemma UnzipEventsThenError(t: DataTree, env: Env, message: string)
    requires CleanAndUnzip(t, env).1.Ok?
    ensures var trace := CleanAndUnzip(t, env).1.value + [Errored(Some(message))];
      trace[|trace| - 1] == Errored(Some(message)) && forall e | e in trace :: e.Errored?
  {
    var events := CleanAndUnzip(t, env).1.value;
    var failure := Errored(Some(message));
    forall e | e in events + [failure] ensures e.Errored? {
      assert e in events || e == failure;
    }
  }

  /** Cleaning and unzipping leave the versioned package directories
      alone. */
  lemma UnzipKeepsVersions(t: DataTree, env: Env)
    ensures Under(CleanAndUnzip(t, env).0, VersionsDir) == Under(t, VersionsDir)
  {
    var t1 := CleanAndUnzip(t, env).0;
    CleanAndUnzipConfined(t, env);
    assert Apart(DownloadUnzipDir, VersionsDir) by {
      assert DownloadUnzipDir[1] != VersionsDir[1];
    }
    ConfinedUnder(t, t1, DownloadUnzipDir, VersionsDir);
  }

  /** The run a failed verification leaves: the unzip stage's tree, and its
      events followed by the verification error. */
  lemma VerifyFailureRun(t: DataTree, pkg: Package, options: Option<InstallOptions>, env: Env)
    requires CleanAndUnzip(t, env).1.Ok?
    requires VerifyPackage(CleanAndUnzip(t, env).0, pkg.packageHash, env.native).Err?
    ensures Install(t, pkg, options, env) == Run(CleanAndUnzip(t, env).0, CleanAndUnzip(t, env).1.value
      + [Errored(Some(VerifyPackage(CleanAndUnzip(t, env).0, pkg.packageHash, env.native).message))])
  {
    var (t1, unzipped) := CleanAndUnzip(t, env);
    assert VerifyAndDeploy(t1, pkg, options, env) == Run(t1, [Errored(Some(VerifyPackage(t1, pkg.packageHash, env.native).message))]);
  }

  /** An unzip error is reported and nothing else changes: the run is the
      error-free run with the unzip error in front. So a failed unzip
      followed by a failed verification reports two errors. */
  lemma UnzipErrorOnlyReported(t: DataTree, pkg: Package, options: Option<InstallOptions>, env: Env, m: string)
    requires CleanAndUnzip(t, env).1.Ok?
    ensures var clean := Install(t, pkg, options, env.(unzipError := None));
      var failed := Install(t, pkg, options, env.(unzipError := Some(m)));
      failed.tree == clean.tree && failed.trace == [Errored(Some(UnzipFailure + m))] + clean.trace
  {
    var a := env.(unzipError := None);
    var b := env.(unzipError := Some(m));
    UnzipStageIgnoresError(t, env, m);
    var t1 := CleanAndUnzip(t, a).0;
    VerifyAndDeployIgnoresUnzipError(t1, pkg, options, env, m);
    var rest := VerifyAndDeploy(t1, pkg, options, a);
    assert Install(t, pkg, options, a) == Run(rest.tree, [] + rest.trace);
    assert Install(t, pkg, options, b) == Run(rest.tree, [Errored(Some(UnzipFailure + m))] + rest.trace);
    assert [] + rest.trace == rest.trace;
  }

  /** With or without an unzip error, cleaning and unzipping leave the same
      tree; the error only adds its event. */
  lemma UnzipStageIgnoresError(t: DataTree, env: Env, m: string)
    requires CleanAndUnzip(t, env).1.Ok?
    ensures var t1 := CleanAndUnzip(t, env.(unzipError := None)).0;
      && CleanAndUnzip(t, env.(unzipError := None)) == (t1, Ok([]))
      && CleanAndUnzip(t, env.(unzipError := Some(m))) == (t1, Ok([Errored(Some(UnzipFailure + m))]))
  {
    var a := env.(unzipError := None);
    var t0 := CleanStale(t, env.staleCleanup).0;
    UnzipIgnoresError(t0, env, Some(m));
    UnzipIgnoresError(t0, env, env.unzipError);
    assert CleanAndUnzip(t, a) == Unzip(t0, a);
  }

  lemma VerifyAndDeployIgnoresUnzipError(t: DataTree, pkg: Package, options: Option<InstallOptions>, env: Env, m: string)
    ensures VerifyAndDeploy(t, pkg, options, env.(unzipError := Some(m))) == VerifyAndDeploy(t, pkg, options, env.(unzipError := None))
  {
    DeployIgnoresUnzipError(t, pkg, PackageLocation(HashText(pkg.packageHash)), ResolveInstallOptions(options), env, m);
  }

  /** The unzip error does not change what the unzip stage leaves behind. */
  lemma UnzipIgnoresError(t: DataTree, env: Env, e: Option<string>)
    ensures Unzip(t, env.(unzipError := e)).0 == Unzip(t, env.(unzipError := None)).0
    ensures Unzip(t, env.(unzipError := e)).1.Ok? == Unzip(t, env.(unzipError := None)).1.Ok?
  {
  }

  lemma DeployIgnoresUnzipError(t: DataTree, pkg: Package, target: Path, opts: InstallOptions, env: Env, m: string)
    requires Below(VersionsDir, target) && opts.Complete()
    ensures Deploy(t, pkg, target, opts, env.(unzipError := Some(m))) == Deploy(t, pkg, target, opts, env.(unzipError := None))
  {
    var a := env.(unzipError := None);
    var b := env.(unzipError := Some(m));
    var d := HandleDeployment(t, target, env.appDir, env.app, env.deployFaults);
    var p := pkg.(localPath := Some(target));
    assert RecordPackage(d.tree, p, b) == RecordPackage(d.tree, p, a);
    assert FinishInstall(d.tree, p, target, opts, b) == FinishInstall(d.tree, p, target, opts, a);
  }
}

=== FILE: package_info.dfy ===
/** Package records and their two slots on disk, `codepush/currentPackage.json`
    and `codepush/oldPackage.json` (localPackage.ts): building the record
    written after a deployment, turning a stored record back into a package,
    the three read variants, the write, and the rollback backup.

    JSON text is not modelled: a stored file holds one of the shapes of
    `Content`, and `JSON.stringify` followed by `JSON.parse` is the
    identity on records, with `undefined` fields kept as `None`. */
module PackageInfo {
  import opened Wrappers
  import opened FileTree

  datatype InstallMode = Immediate | OnNextRestart | OnNextResume

  /** The record stored in a package slot (IPackageInfoMetadata). */
  datatype Metadata = Metadata(
    nativeBuildTime: Option<string>,
    localPath: Option<Path>,
    appVersion: Option<string>,
    deploymentKey: Option<string>,
    description: Option<string>,
    isMandatory: Option<bool>,
    packageSize: Option<int>,
    packageLabel: Option<string>,
    packageHash: Option<string>,
    isFirstRun: Option<bool>,
    failedInstall: Option<bool>)

  /** A LocalPackage object; fields never assigned stay `undefined`. */
  datatype Package = Package(
    appVersion: Option<string>,
    deploymentKey: Option<string>,
    description: Option<string>,
    packageLabel: Option<string>,
    isMandatory: Option<bool>,
    packageHash: Option<string>,
    packageSize: Option<int>,
    localPath: Option<Path>,
    isFirstRun: Option<bool>,
    failedInstall: Option<bool>)

  /** What a data file holds, as far as the pipeline can tell: text that is
      not JSON, the JSON `null`, a package record, or a diff manifest. */
  datatype Content =
    | Blob(text: string)
    | JsonNull
    | MetadataJson(meta: Metadata)
    | ManifestJson(deletedFiles: seq<Path>)

  type DataTree = Tree<Content>

  /** The answers of NativeAppInfo, fixed for one run of the pipeline. */
  datatype AppInfo = AppInfo(
    buildTime: Result<string>,
    appVersion: Result<string>,
    binaryHash: Result<string>,
    pendingUpdate: bool,
    failedUpdate: Option<string> -> bool,
    firstRun: Option<string> -> bool)

  /** Storage faults FileUtil may report for the metadata slots. */
  datatype SlotFaults = SlotFaults(
    write: Option<string>,
    removeOld: bool,
    copyToOld: bool)

  // The storage layout under the data root.
  const RootDir: Path := ["codepush"]
  const DownloadDir: Path := RootDir + ["download"]
  const DownloadUnzipDir: Path := DownloadDir + ["unzipped"]
  const DeployDir: Path := RootDir + ["deploy"]
  const VersionsDir: Path := DeployDir + ["versions"]
  const DiffManifestFile := "hotcodepush.json"
  const DiffManifestPath: Path := DownloadUnzipDir + [DiffManifestFile]
  const PackageInfoFile := "currentPackage.json"
  const OldPackageInfoFile := "oldPackage.json"
  const CurrentSlot: Path := RootDir + [PackageInfoFile]
  const OldSlot: Path := RootDir + [OldPackageInfoFile]

  const ReadFailure := "The file could not be read."
  const ParseFailure := "The file is not valid JSON."
  const NoCurrentFile := "The current package information file does not exist."
  const RemoveOldFailure := "The old package information file could not be removed."
  const CopyFailure := "The package information file could not be copied."

  const NoMetadata := Metadata(None, None, None, None, None, None, None, None, None, None, None)

  /** A file exists at `p`. */
  predicate HasFile(t: DataTree, p: Path) {
    p in t && t[p].File?
  }

  // ---------------------------------------------------------------------
  // Building and reading records.

  /** writeNewPackageMetadata: the record for a package just deployed. The
      build time and app version come from the native side (`undefined`
      when those calls fail); both run flags start out false. */
  function NewMetadata(pkg: Package, app: AppInfo): (m: Metadata)
    ensures m.packageHash == pkg.packageHash && m.packageLabel == pkg.packageLabel
    ensures m.deploymentKey == pkg.deploymentKey && m.description == pkg.description
    ensures m.isMandatory == pkg.isMandatory && m.packageSize == pkg.packageSize
    ensures m.localPath == pkg.localPath
    ensures m.isFirstRun == Some(false) && m.failedInstall == Some(false)
    ensures m.appVersion.Some? <==> app.appVersion.Ok?
    ensures app.appVersion.Ok? ==> m.appVersion == Some(app.appVersion.value)
    ensures m.nativeBuildTime.Some? <==> app.buildTime.Ok?
    ensures app.buildTime.Ok? ==> m.nativeBuildTime == Some(app.buildTime.value)
  {
    Metadata(
      nativeBuildTime := if app.buildTime.Ok? then Some(app.buildTime.value) else None,
      localPath := pkg.localPath,
      appVersion := if app.appVersion.Ok? then Some(app.appVersion.value) else None,
      deploymentKey := pkg.deploymentKey,
      description := pkg.description,
      isMandatory := pkg.isMandatory,
      packageSize := pkg.packageSize,
      packageLabel := pkg.packageLabel,
      packageHash := pkg.packageHash,
      isFirstRun := Some(false),
      failedInstall := Some(false))
  }

  /** getLocalPackageFromMetadata: `None` is the JSON `null`. The two run
      flags are asked of the native side for the record's hash. */
  function FromMetadata(meta: Option<Metadata>, app: AppInfo): (r: Result<Package>)
    ensures meta.None? <==> r.Err?
    ensures r.Err? ==> r.message == "Invalid package metadata."
    ensures r.Ok? ==> var m, p := meta.value, r.value;
      && p.appVersion == m.appVersion && p.deploymentKey == m.deploymentKey
      && p.description == m.description && p.isMandatory == m.isMandatory
      && p.packageLabel == m.packageLabel && p.localPath == m.localPath
      && p.packageHash == m.packageHash && p.packageSize == m.packageSize
      && p.failedInstall == Some(app.failedUpdate(m.packageHash))
      && p.isFirstRun == Some(app.firstRun(m.packageHash))
  {
    match meta
    case None => Err("Invalid package metadata.")
    case Some(m) =>
      Ok(Package(
        appVersion := m.appVersion,
        deploymentKey := m.deploymentKey,
        description := m.description,
        packageLabel := m.packageLabel,
        isMandatory := m.isMandatory,
        packageHash := m.packageHash,
        packageSize := m.packageSize,
        localPath := m.localPath,
        isFirstRun := Some(app.firstRun(m.packageHash)),
        failedInstall := Some(app.failedUpdate(m.packageHash))))
  }

  /** What `JSON.parse` yields for a stored file: `Ok(None)` is `null`; a
      manifest parses as an object carrying none of the record's fields. */
  function ParseRecord(c: Content): Result<Option<Metadata>> {
    match c
    case Blob(_) => Err(ParseFailure)
    case JsonNull => Ok(None)
    case MetadataJson(m) => Ok(Some(m))
    case ManifestJson(_) => Ok(Some(NoMetadata))
  }

  /** getPackage: the strict read of slot `file` under the root directory.
      Read and parse errors are prefixed; an invalid record is not. */
  function GetPackage(t: DataTree, file: string, app: AppInfo): (r: Result<Package>)
    ensures !HasFile(t, RootDir + [file]) ==> r == Err("Cannot read package information. " + ReadFailure)
    ensures HasFile(t, RootDir + [file]) && t[RootDir + [file]].content.MetadataJson? ==>
      r == FromMetadata(Some(t[RootDir + [file]].content.meta), app)
    ensures HasFile(t, RootDir + [file]) && t[RootDir + [file]].content.Blob? ==>
      r == Err("Cannot read package information. " + ParseFailure)
    ensures HasFile(t, RootDir + [file]) && t[RootDir + [file]].content.JsonNull? ==>
      r == Err("Invalid package metadata.")
  {
    var p := RootDir + [file];
    if !HasFile(t, p) then Err("Cannot read package information. " + ReadFailure)
    else
      match ParseRecord(t[p].content)
      case Err(e) => Err("Cannot read package information. " + e)
      case Ok(meta) => FromMetadata(meta, app)
  }

  /** The package a process without any stored record reports: the app
      version, plus the binary's hash when that lookup succeeds. */
  function DefaultPackage(appVersion: string, binaryHash: Result<string>): (p: Package)
    ensures p.appVersion == Some(appVersion)
    ensures p.packageHash.Some? <==> binaryHash.Ok?
    ensures binaryHash.Ok? ==> p.packageHash == Some(binaryHash.value)
    ensures p.deploymentKey.None? && p.description.None? && p.packageLabel.None? && p.isMandatory.None?
    ensures p.packageSize.None? && p.localPath.None? && p.isFirstRun.None? && p.failedInstall.None?
  {
    Package(Some(appVersion), None, None, None, None,
            if binaryHash.Ok? then Some(binaryHash.value) else None,
            None, None, None, None)
  }

  /** getPackageInfoOrDefault: any failure of the strict read is replaced by
      the default package, unless the app version itself cannot be had. */
  function GetPackageInfoOrDefault(t: DataTree, file: string, app: AppInfo): (r: Result<Package>)
    ensures GetPackage(t, file, app).Ok? ==> r == GetPackage(t, file, app)
    ensures GetPackage(t, file, app).Err? && app.appVersion.Err? ==> r == Err(app.appVersion.message)
    ensures GetPackage(t, file, app).Err? && app.appVersion.Ok? ==>
      r.Ok? && r.value.appVersion == Some(app.appVersion.value)
      && (r.value.packageHash.Some? <==> app.binaryHash.Ok?)
      && (app.binaryHash.Ok? ==> r.value.packageHash == Some(app.binaryHash.value))
    ensures r.Err? ==> app.appVersion.Err?
  {
    match GetPackage(t, file, app)
    case Ok(p) => Ok(p)
    case Err(_) =>
      match app.appVersion
      case Err(e) => Err(e)
      case Ok(v) => Ok(DefaultPackage(v, app.binaryHash))
  }

  /** getPackageInfoOrNull: never an error; `None` on any failure. */
  function GetPackageInfoOrNull(t: DataTree, file: string, app: AppInfo): (r: Option<Package>)
    ensures r.Some? <==> GetPackage(t, file, app).Ok?
    ensures r.Some? ==> r.value == GetPackage(t, file, app).value
  {
    match GetPackage(t, file, app)
    case Ok(p) => Some(p)
    case Err(_) => None
  }

  // ---------------------------------------------------------------------
  // Writing records and the rollback backup.

  /** writeCurrentPackageInformation: overwrite the current slot, creating
      the root directory if needed. */
  function WriteCurrentPackageInformation(t: DataTree, m: Metadata, faults: SlotFaults): (r: (DataTree, Result<()>))
    ensures r.1.Ok? ==> HasFile(r.0, CurrentSlot) && r.0[CurrentSlot].content == MetadataJson(m)
    ensures r.1.Ok? ==> forall p :: p in t && p != CurrentSlot ==> p in r.0 && r.0[p] == t[p]
    ensures r.1.Ok? ==> r.0.Keys <= t.Keys + {RootDir, CurrentSlot}
    ensures r.1.Err? ==> r.0 == t
    ensures faults.write.Some? ==> r.1 == Err(faults.write.value)
    ensures r.1.Ok? <==> faults.write.None? && (DirExists(t, RootDir) || !Blocked(t, RootDir))
    ensures r.1.Err? && faults.write.None? ==> r.1.message == DirectoryError
  {
    AncestryIn(RootDir, RootDir);
    if faults.write.Some? then (t, Err(faults.write.value))
    else
      match GetDirectory(t, RootDir, true)
      case Err(e) => (t, Err(e))
      case Ok(t') => (t'[CurrentSlot := File(MetadataJson(m))], Ok(()))
  }

  /** backupPackageInformationFile: remove any existing old slot, then copy
      the current slot's file over it. A missing current file is an error. */
  function BackupPackageInformationFile(t: DataTree, faults: SlotFaults): (r: (DataTree, Result<()>))
    ensures !HasFile(t, CurrentSlot) ==> r == (t, Err(NoCurrentFile))
    ensures r.1.Ok? <==> HasFile(t, CurrentSlot) && !(HasFile(t, OldSlot) && faults.removeOld) && !faults.copyToOld
    ensures r.1.Ok? ==> r.0 == t[OldSlot := t[CurrentSlot]]
    ensures forall p :: p != OldSlot ==> (p in r.0 <==> p in t) && (p in t ==> r.0[p] == t[p])
  {
    if !HasFile(t, CurrentSlot) then (t, Err(NoCurrentFile))
    else if HasFile(t, OldSlot) && faults.removeOld then (t, Err(RemoveOldFailure))
    else
      var t' := if HasFile(t, OldSlot) then t - {OldSlot} else t;
      if faults.copyToOld then (t', Err(CopyFailure))
      else (t'[OldSlot := t[CurrentSlot]], Ok(()))
  }

  // ---------------------------------------------------------------------
  // Properties relating writing and reading.

  /** A record written by the pipeline reads back as the same package: every
      identifying field survives, the run flags come from the native side,
      the build time is dropped and the app version is the native one. */
  lemma MetadataRoundTrip(pkg: Package, app: AppInfo, t: DataTree, faults: SlotFaults)
    requires WriteCurrentPackageInformation(t, NewMetadata(pkg, app), faults).1.Ok?
    ensures var t' := WriteCurrentPackageInformation(t, NewMetadata(pkg, app), faults).0;
      var r := GetPackage(t', PackageInfoFile, app);
      && r.Ok?
      && r.value.packageHash == pkg.packageHash
      && r.value.packageLabel == pkg.packageLabel
      && r.value.deploymentKey == pkg.deploymentKey
      && r.value.description == pkg.description
      && r.value.isMandatory == pkg.isMandatory
      && r.value.packageSize == pkg.packageSize
      && r.value.localPath == pkg.localPath
      && r.value.failedInstall == Some(app.failedUpdate(pkg.packageHash))
      && r.value.isFirstRun == Some(app.firstRun(pkg.packageHash))
      && (r.value.appVersion.Some? <==> app.appVersion.Ok?)
      && (app.appVersion.Ok? ==> r.value.appVersion == Some(app.appVersion.value))
  {
    assert CurrentSlot == RootDir + [PackageInfoFile];
  }

  /** After a successful backup, the old slot reads exactly as the current
      slot did before it. */
  lemma BackupPreservesRecord(t: DataTree, faults: SlotFaults, app: AppInfo)
    requires BackupPackageInformationFile(t, faults).1.Ok?
    ensures GetPackage(BackupPackageInformationFile(t, faults).0, OldPackageInfoFile, app)
         == GetPackage(t, PackageInfoFile, app)
  {
    assert OldSlot == RootDir + [OldPackageInfoFile];
    assert CurrentSlot == RootDir + [PackageInfoFile];
  }

  /** The null read agrees with the default read whenever the strict read
      succeeds, and never errs where the default read errs. */
  lemma ReadVariantsAgree(t: DataTree, file: string, app: AppInfo)
    ensures GetPackageInfoOrNull(t, file, app).Some? ==>
      GetPackageInfoOrDefault(t, file, app) == Ok(GetPackageInfoOrNull(t, file, app).value)
    ensures GetPackageInfoOrNull(t, file, app).None? && app.appVersion.Ok? ==>
      GetPackageInfoOrDefault(t, file, app) == Ok(DefaultPackage(app.appVersion.value, app.binaryHash))
  {
  }

  /** A read of slot `file` depends on nothing but that slot's entry. */
  lemma GetPackageFrame(t: DataTree, t1: DataTree, file: string, app: AppInfo)
    requires RootDir + [file] in t1 <==> RootDir + [file] in t
    requires RootDir + [file] in t ==> t1[RootDir + [file]] == t[RootDir + [file]]
    ensures GetPackage(t1, file, app) == GetPackage(t, file, app)
  {
  }
}

=== FILE: string_order.dfy ===
/** The order Collections.sort puts manifest entries in: String.compareTo,
    which compares the first differing characters and otherwise puts a
    prefix first. */
module StringOrder {
  /** `a.compareTo(b) <= 0`. */
  predicate Leq(a: string, b: string) {
    if a == [] then true
    else if b == [] then false
    else if a[0] != b[0] then a[0] < b[0]
    else Leq(a[1..], b[1..])
  }

  lemma {:induction false} LeqTotal(a: string, b: string)
    ensures Leq(a, b) || Leq(b, a)
  {
    if a != [] && b != [] && a[0] == b[0] {
      LeqTotal(a[1..], b[1..]);
    }
  }

  lemma {:induction false} LeqReflexive(a: string)
    ensures Leq(a, a)
  {
    if a != [] {
      LeqReflexive(a[1..]);
    }
  }

  lemma {:induction false} LeqAntisymmetric(a: string, b: string)
    requires Leq(a, b) && Leq(b, a)
    ensures a == b
  {
    if a != [] && b != [] {
      LeqAntisymmetric(a[1..], b[1..]);
      assert a == [a[0]] + a[1..] && b == [b[0]] + b[1..];
    }
  }

  lemma {:induction false} LeqTransitive(a: string, b: string, c: string)
    requires Leq(a, b) && Leq(b, c)
    ensures Leq(a, c)
  {
    if a != [] && b != [] && c != [] && a[0] == b[0] && b[0] == c[0] {
      LeqTransitive(a[1..], b[1..], c[1..]);
    }
  }

  predicate Sorted(s: seq<string>) {
    forall i, j | 0 <= i < j < |s| :: Leq(s[i], s[j])
  }

  /** Insertion of one entry into a sorted list. */
  function Insert(x: string, s: seq<string>): (r: seq<string>)
    requires Sorted(s)
    ensures Sorted(r)
    ensures multiset(r) == multiset(s) + multiset{x}
  {
    if s == [] then [x]
    else if Leq(x, s[0]) then
      forall j | 0 <= j < |s| ensures Leq(x, s[j]) {
        if j > 0 {
          LeqTransitive(x, s[0], s[j]);
        }
      }
      [x] + s
    else
      LeqTotal(x, s[0]);
      var rest := Insert(x, s[1..]);
      assert multiset(rest) == multiset(s[1..]) + multiset{x};
      assert s == [s[0]] + s[1..];
      forall j | 0 <= j < |rest| ensures Leq(s[0], rest[j]) {
        assert rest[j] in multiset(rest);
      }
      [s[0]] + rest
  }

  /** Collections.sort on the manifest: a sorted permutation. */
  function Sort(s: seq<string>): (r: seq<string>)
    ensures Sorted(r)
    ensures multiset(r) == multiset(s)
  {
    if s == [] then []
    else
      assert s == [s[0]] + s[1..];
      Insert(s[0], Sort(s[1..]))
  }

  /** A sorted list is fixed by its elements: two sorted lists holding the
      same entries are the same list. */
  lemma {:induction false} SortedUnique(a: seq<string>, b: seq<string>)
    requires Sorted(a) && Sorted(b) && multiset(a) == multiset(b)
    ensures a == b
  {
    if a == [] {
      assert |b| == |multiset(b)| == 0;
    } else {
      assert |b| == |multiset(b)| == |a|;
      HeadIsLeast(a, b[0]);
      HeadIsLeast(b, a[0]);
      LeqAntisymmetric(a[0], b[0]);
      SplitHead(a);
      SplitHead(b);
      SortedTail(a);
      SortedTail(b);
      SortedUnique(a[1..], b[1..]);
    }
  }

  /** The head of a sorted list comes first among its elements. */
  lemma HeadIsLeast(s: seq<string>, x: string)
    requires Sorted(s) && x in multiset(s)
    ensures Leq(s[0], x)
  {
    var i :| 0 <= i < |s| && s[i] == x;
    if i == 0 {
      LeqReflexive(x);
    }
  }

  lemma SplitHead(s: seq<string>)
    requires s != []
    ensures s == [s[0]] + s[1..]
    ensures multiset(s[1..]) == multiset(s) - multiset{s[0]}
  {
    assert s == [s[0]] + s[1..];
  }

  lemma SortedTail(s: seq<string>)
    requires Sorted(s) && s != []
    ensures Sorted(s[1..])
  {
    forall i, j | 0 <= i < j < |s| - 1 ensures Leq(s[1..][i], s[1..][j]) {
      assert s[1..][i] == s[i + 1] && s[1..][j] == s[j + 1];
    }
  }

  /** The sorted manifest depends only on which entries there are, not on
      the order the walk produced them in. */
  lemma SortIgnoresOrder(a: seq<string>, b: seq<string>)
    requires multiset(a) == multiset(b)
    ensures Sort(a) == Sort(b)
  {
    SortedUnique(Sort(a), Sort(b));
  }

  /** Sorting a sorted list changes nothing. */
  lemma SortIdempotent(s: seq<string>)
    ensures Sort(Sort(s)) == Sort(s)
  {
    SortedUnique(Sort(Sort(s)), Sort(s));
  }

  /** Where the head of `l1` sits in its permutation `l2`. */
  lemma PickOut<T>(l1: seq<T>, l2: seq<T>) returns (before: seq<T>, after: seq<T>)
    requires l1 != [] && multiset(l1) == multiset(l2)
    ensures l1 == [l1[0]] + l1[1..]
    ensures l2 == before + [l1[0]] + after
    ensures multiset(l1[1..]) == multiset(before + after)
  {
    var x := l1[0];
    assert x in multiset(l2);
    var i :| 0 <= i < |l2| && l2[i] == x;
    before, after := l2[..i], l2[i + 1..];
    assert l2 == before + [x] + after;
    assert l1 == [x] + l1[1..];
    CancelOne(x, l1[1..], before, after);
  }

  /** Taking the same element out of two equal multisets leaves equal ones. */
  lemma CancelOne<T>(x: T, tail: seq<T>, before: seq<T>, after: seq<T>)
    requires multiset([x] + tail) == multiset(before + [x] + after)
    ensures multiset(tail) == multiset(before + after)
  {
    assert multiset([x] + tail) == multiset{x} + multiset(tail);
    assert multiset(before + [x] + after) == multiset{x} + multiset(before + after);
    assert multiset(tail) == multiset([x] + tail) - multiset{x};
  }

  lemma Rearranged(x: seq<string>, t: seq<string>, b: seq<string>, a: seq<string>)
    requires multiset(t) == multiset(b + a)
    ensures multiset(x + t) == multiset((b + x) + a)
  {
    calc {
      multiset(x + t);
      multiset(x) + multiset(b) + multiset(a);
      multiset((b + x) + a);
    }
  }
}

=== FILE: verification.dfy ===
/** Package verification (verifyPackage in localPackage.ts): the hash the
    native side computes over the unzipped update is checked against the
    hash the server reported and, when code signing is on, against the hash
    decoded from the signed release token. */
module Verification {
  import opened Wrappers
  import opened FileTree
  import opened PackageInfo

  /** The two native calls verification makes: getPackageHash over the
      unzipped tree, and verifySignature over the release token's contents
      (`None` when the token could not be read). verifySignature yields the
      decoded hash, or `None`/`""` when no public key is configured. */
  datatype Native = Native(
    packageHash: DataTree -> Result<string>,
    verifySignature: Option<Content> -> Result<Option<string>>)

  const ReleaseTokenPath: Path := DownloadUnzipDir + ["www", ".codepushrelease"]
  const HashMismatch := "package hash verification failed"

  /** `!expectedHash` in JavaScript: no signed hash, or the empty one. */
  predicate Unsigned(expectedHash: Option<string>) {
    expectedHash.None? || expectedHash.value == ""
  }

  /** verifySignatureSuccess: the decision over the computed hash, the
      server's packageHash and the optional signed hash. The result value is
      whether the package was checked against a signature. */
  function CheckHashes(localHash: string, packageHash: Option<string>, expectedHash: Option<string>): (r: Result<bool>)
    ensures r.Ok? <==> packageHash == Some(localHash) && (Unsigned(expectedHash) || expectedHash == Some(localHash))
    ensures r.Ok? ==> (r.value <==> !Unsigned(expectedHash))
    ensures r.Err? ==> r.message == HashMismatch
  {
    if packageHash != Some(localHash) then Err(HashMismatch)
    else if Unsigned(expectedHash) then Ok(false)
    else if localHash == expectedHash.value then Ok(true)
    else Err(HashMismatch)
  }

  /** A mismatch with the server's hash fails whatever the signature says;
      a signed success means all three hashes agree. */
  lemma SignatureCannotOverrideMismatch(localHash: string, packageHash: Option<string>, expectedHash: Option<string>)
    ensures packageHash != Some(localHash) ==> CheckHashes(localHash, packageHash, expectedHash) == Err(HashMismatch)
    ensures CheckHashes(localHash, packageHash, expectedHash) == Ok(true) ==>
      packageHash == Some(localHash) && expectedHash == Some(localHash) && localHash != ""
  {
  }

  /** The release token as read before the signature check. */
  function ReleaseToken(t: DataTree): (r: Option<Content>)
    ensures r.Some? <==> HasFile(t, ReleaseTokenPath)
  {
    if HasFile(t, ReleaseTokenPath) then Some(t[ReleaseTokenPath].content) else None
  }

  /** verifyPackage: compute the hash, read the token, ask for the signed
      hash, then decide. The signature call happens before the hashes are
      compared, so its failure is what gets reported even on a mismatch. */
  function VerifyPackage(t: DataTree, packageHash: Option<string>, native: Native): (r: Result<bool>)
    ensures native.packageHash(Under(t, DownloadUnzipDir)).Err? ==>
      r == Err("unable to compute hash for package: " + native.packageHash(Under(t, DownloadUnzipDir)).message)
    ensures native.packageHash(Under(t, DownloadUnzipDir)).Ok? && native.verifySignature(ReleaseToken(t)).Err? ==>
      r == Err("signature verification error: " + native.verifySignature(ReleaseToken(t)).message)
    ensures r.Ok? ==> packageHash == Some(native.packageHash(Under(t, DownloadUnzipDir)).value)
    ensures r.Ok? && r.value ==> native.verifySignature(ReleaseToken(t)) == Ok(packageHash)
    ensures native.packageHash(Under(t, DownloadUnzipDir)).Ok? && native.verifySignature(ReleaseToken(t)).Ok? ==>
      r == CheckHashes(native.packageHash(Under(t, DownloadUnzipDir)).value, packageHash, native.verifySignature(ReleaseToken(t)).value)
  {
    match native.packageHash(Under(t, DownloadUnzipDir))
    case Err(e) => Err("unable to compute hash for package: " + e)
    case Ok(localHash) =>
      match native.verifySignature(ReleaseToken(t))
      case Err(e) => Err("signature verification error: " + e)
      case Ok(expectedHash) => CheckHashes(localHash, packageHash, expectedHash)
  }
}

=== FILE: wrappers.dfy ===
/** Failure-carrying values shared by every module of the model.
    `Option` stands for a JavaScript value that may be `undefined`/`null`,
    `Result` for a node-style callback that receives either an error
    message or a value. */
module Wrappers {

  datatype Option<+T> = None | Some(value: T) {
    function GetOr(default: T): T {
      match this
      case Some(v) => v
      case None => default
    }
  }

  /** `Err` carries the `message` of the JavaScript `Error` handed to the
      error callback. */
  datatype Result<+T> = Ok(value: T) | Err(message: string) {
    predicate IsFailure() {
      Err?
    }

    function PropagateFailure<U>(): Result<U>
      requires Err?
    {
      Err(message)
    }

    function Extract(): T
      requires Ok?
    {
      value
    }
  }
}
